=== FILE: README.md ===
# single-file-agents: the agent loops and omni's session state, in Dafny

This project models the control flow of three single-file agents in Dafny and proves properties about it.

- **The Ollama delegator** (`sfa_ollama_delegator_agent.py`). A primary model answers the user's prompt and may call the `run_ollama_generate` tool, which posts a generation request to a local Ollama server. The agent loop keeps the history and answers every tool call of a reply in one user turn. It ends on a final text answer, on an empty turn, on an API error, or when the loop budget runs out.
- **The DuckDB agent driven by Gemini** (`sfa_duckdb_gemini_v2.py`). The history starts from the agent template with the request spliced in. Each iteration counts itself against the compute budget before it calls the model. The function calls of each reply run in order, and every call appends the model content and one `tool` entry. A successful `run_final_sql_query` ends the run. `list_tables` splits the stripped `duckdb .tables` output into names.
- **omni** (`omni.py`). One command per run is routed to one agent response, and that response is logged once in the transaction log. The session holds a capability registry in which names never repeat. Every failure of `get_qwen3_response` is a string that starts with `Error:`, and callers branch on that prefix. The help prompt lists the session's capabilities.

Outside calls are parameters of the model:

- The Anthropic messages API, Gemini `generate_content` and `qwen3` behind Ollama are each a function from the request sent to the reply received, or to the exception raised. For omni, that function also takes the request's position in the run, because help sends the same prompt twice and the two replies need not agree.
- The Ollama HTTP endpoint the delegator calls is one such function as well.
- The DuckDB tools are one function from a call to `str(result)` or to the exception the tool raised.
- `json.loads` is one function from text to a decoded value or a decode error.

Because these are functions, "no request is sent" can be stated directly: the result is the same whatever the oracle would have answered.

The delegator's loop takes the way tool uses are answered as a parameter too. Its properties hold for any answerer that answers every tool use of a reply, by id and in order. `Delegator.ToolAnswers` proves that the delegator's own dispatch is such an answerer. `Delegator.RunDelegator` is `main` with that dispatch plugged in.

Files:

- `wrappers.dfy` holds `Option`.
- `text.dfy` holds the Python string operations the code relies on: `strip`, `split`, `join`, `replace`, `startswith` and `str(int)`.
- `json.dfy` holds decoded JSON values, Python truthiness and `dict.get`.
- `delegator.dfy`, `duckdb_agent.dfy` and `omni.dfy` hold the three agents.

## Model

| member | source | states |
|---|---|---|
| Text.Strip | sfa_duckdb_gemini_v2.py:57 | The result is a slice of the input with only whitespace outside it. It neither starts nor ends with whitespace, and it is empty exactly when the input is blank. |
| Text.Split | sfa_duckdb_gemini_v2.py:57 | `split("\n")` gives at least one piece. No piece holds the separator. Joining the pieces gives the input back. |
| Text.SplitJoin | sfa_duckdb_gemini_v2.py:57 | The other half of the round trip: splitting a join of separator-free pieces gives the pieces back. |
| Text.ReplaceOnce | sfa_duckdb_gemini_v2.py:335 | When the pattern occurs exactly once, `str.replace` splices the replacement in at that position and keeps the rest. |
| Text.ReplaceAbsent | sfa_duckdb_gemini_v2.py:335 | Replacing a pattern that does not occur leaves the string unchanged. |
| Text.NatToStringRoundTrip | omni.py:433 | The decimal text of a status code reads back as that number. |
| Delegator.OllamaPayload | sfa_ollama_delegator_agent.py:61-75 | The payload always holds `model`, `prompt` and `stream: false`. `system` is present exactly when the system prompt is truthy. `options` is present exactly when the context window is truthy, and then it holds only `num_ctx`. |
| Delegator.ReplyOutcome | sfa_ollama_delegator_agent.py:79-118 | Every caught failure (timeout, refused connection, HTTP error, other request error, undecodable JSON) becomes a returned text starting with `Error:`. A body without `response` gives `""`. Only an uncaught exception raises. |
| Delegator.RunOllamaGenerate | sfa_ollama_delegator_agent.py:54-89 | An empty base URL returns `Error: OLLAMA_BASE_URL is not configured.` Otherwise it posts the generate request, and the result depends on Ollama's reply. A successful reply returns its `response` text, or `""` when the body has none. A transport failure is reported as an `Error:` text. An exception none of the handlers catches propagates. |
| Delegator.GenerateSendsOnlyItsRequest | sfa_ollama_delegator_agent.py:54-80 | The only request the tool can send is the generate payload posted to base + `/api/generate`. With an empty base URL the endpoint is never consulted. |
| Delegator.ExecuteToolUse | sfa_ollama_delegator_agent.py:281-308 | Each result carries its call's id. Another tool name gets `Error: Unknown tool '<name>' called by LLM.` A falsy `model_name` or `prompt` gets the required-arguments error. A well-formed call gets the text `run_ollama_generate` returned, or `Error executing tool run_ollama_generate internally: <message>` when it raised. |
| Delegator.InvalidCallSendsNothing | sfa_ollama_delegator_agent.py:281-302 | An unknown tool, a missing required argument or an empty base URL is answered without any Ollama request. |
| Delegator.ToolUsesAppend | sfa_ollama_delegator_agent.py:257-263 | Tool-use blocks are collected in the reply's own order. |
| Delegator.ExecuteAll | sfa_ollama_delegator_agent.py:270-311 | There is exactly one result per tool use, in order, each the answer to that call. |
| Delegator.ToolAnswers | sfa_ollama_delegator_agent.py:270-311 | The delegator's dispatch answers every tool use of a reply with one result carrying its id, in the reply's order. Each reply is answered with exactly the dispatch of its tool uses. |
| Delegator.AgentLoop | sfa_ollama_delegator_agent.py:234-316 | The history only grows, and `loop_count` ends between its starting value and the budget. |
| Delegator.LoopKeepsTranscript | sfa_ollama_delegator_agent.py:252-311 | Each reply is appended verbatim: it is what the provider returned for the history before it. A reply with tool uses is followed at once by one user turn answering each tool use by id, in order. A reply without tool uses is the last entry. |
| Delegator.LoopResultsVerbatim | sfa_ollama_delegator_agent.py:304-311 | Every tool-result turn the loop appends comes right after a reply and holds exactly the answerer's results for that reply. |
| Delegator.DispatchedResults | sfa_ollama_delegator_agent.py:270-311 | Under the delegator's own dispatch, each tool-result turn after the prompt holds the outputs of running the previous reply's tool uses. |
| Delegator.LoopRepliesVerbatim | sfa_ollama_delegator_agent.py:238-252 | Every reply the loop appends is exactly what the provider returned for the history it was sent. |
| Delegator.LoopEnding | sfa_ollama_delegator_agent.py:234-316 | The history length follows from the number of calls. An API error appends nothing, so the history is the one the failing call was sent. A final or empty reply is the last entry. |
| Delegator.RunAgent | sfa_ollama_delegator_agent.py:199-234 | The history starts with the user's prompt, every reply in it is the provider's reply to the history before it, and every tool-result turn is the answerer's output for the reply before it. With an answerer that answers every tool use, the rest has transcript shape. At most `max(0, max_loops)` iterations run. |
| Delegator.RunDelegator | sfa_ollama_delegator_agent.py:199-316 | The run with the delegator's own dispatch: the history starts with the user's prompt, the rest has transcript shape with every reply kept verbatim. Every tool-result turn holds the dispatch outputs for the tool uses of the reply before it, e.g. the text Ollama generated. At most `max(0, max_loops)` iterations run. |
| Delegator.SuccessIffFinalText | sfa_ollama_delegator_agent.py:257-268 | `final_answer_delivered` holds exactly when the last entry is a reply with no tool use and a text block that is non-blank after `strip`. |
| Delegator.ClassifyStops | sfa_ollama_delegator_agent.py:318-324 | An exhausted budget is reported as "maximum loops". An API error or an empty turn in the last permitted iteration is reported the same way. |
| Delegator.AlwaysToolsExhaustsBudget | sfa_ollama_delegator_agent.py:234-311 | A model that calls a tool on every turn makes exactly `max(0, max_loops)` calls and runs out of budget. |
| Delegator.ToolUsesEmpty | sfa_ollama_delegator_agent.py:257-263 | A reply asks for no tool exactly when none of its blocks is a tool use. |
| Delegator.FirstTextReplyCompletes | sfa_ollama_delegator_agent.py:265-268 | A first reply with no tool use and a non-blank text block ends the run successfully after one call. |
| DuckDbAgent.ListTables | sfa_duckdb_gemini_v2.py:48-60 | The table names are the stripped stdout split on newlines: at least one name, none holding a newline, and they join back to the stripped output. A subprocess exception gives `[]`. |
| DuckDbAgent.ListTablesRoundTrip | sfa_duckdb_gemini_v2.py:57 | A list of newline-free names is what `list_tables` returns exactly when the stripped output is those names joined by newlines. |
| DuckDbAgent.ListTablesOfBlankOutput | sfa_duckdb_gemini_v2.py:57 | Blank output gives one empty name, `[""]`, as `"".split("\n")` does, not an empty list. |
| DuckDbAgent.InitialHistorySplicesRequest | sfa_duckdb_gemini_v2.py:335-340 | The history starts as one user entry: the template with its single `{{user_request}}` replaced by the request. |
| DuckDbAgent.CallResponse | sfa_duckdb_gemini_v2.py:417-433 | A returned tool gives `{"result": <its value>}`. A raising tool gives `{"error": "Error executing <name>: <msg>"}`. |
| DuckDbAgent.FirstExit | sfa_duckdb_gemini_v2.py:406-410 | Gives the position of the first call that ends the run, or the number of calls when none does. |
| DuckDbAgent.ProcessCallsAppendsPairs | sfa_duckdb_gemini_v2.py:386-444 | Calls are handled in order, two entries each (model content, then a `tool` entry for that call). A raising tool does not stop the rest. The first successful final query appends nothing and its output ends the run. |
| DuckDbAgent.ExitIgnoresLaterCalls | sfa_duckdb_gemini_v2.py:406-410 | Calls after a successful `run_final_sql_query` are never processed. |
| DuckDbAgent.UnknownCallRepeatsLastResult | sfa_duckdb_gemini_v2.py:396-428 | A call to a name that is not one of the five tools appends the model content and a `tool` entry answered from the stale `result`. That is the value of the latest call of the run that returned, from this reply or an earlier one, or the `UnboundLocalError` text when none has. `result` is left as it was. |
| DuckDbAgent.KnownThenUnknownRepeats | sfa_duckdb_gemini_v2.py:396-428 | Example: a known tool returns `v`, and an unknown name after it in the same reply is answered with `v` too. |
| DuckDbAgent.AgentLoop | sfa_duckdb_gemini_v2.py:342-452 | The history only grows, and the counter always rises. The budget is hit exactly when the counter reaches `compute`. The number of model calls equals the iterations that passed the budget check. |
| DuckDbAgent.RunAgent | sfa_duckdb_gemini_v2.py:335-357 | At most `compute - 1` model calls are made. With `compute <= 1` none is made, and the run raises `Maximum compute loops reached: 1/<compute>` with the history untouched. |
| DuckDbAgent.CallsReplyProcessed | sfa_duckdb_gemini_v2.py:386-444 | Within budget, a reply with function calls has its own call list processed, with its own content, against the history it was generated for and the carried `result`. A successful final query ends the run with that query's output. Otherwise the loop continues from the entries and `result` the calls left. |
| DuckDbAgent.TextReplyContinues | sfa_duckdb_gemini_v2.py:446-448 | Within budget, a reply without function calls appends exactly its model content and the loop goes on with the next iteration, `result` unchanged. |
| DuckDbAgent.LoopShape | sfa_duckdb_gemini_v2.py:386-452 | The loop appends only model content and `tool` entries, and each `tool` entry comes right after a model entry. A model exception appends nothing. |
| DuckDbAgent.NeverFinalExhaustsBudget | sfa_duckdb_gemini_v2.py:345-357 | A model that never completes a final query ends in the budget exception. |
| Omni.Qwen3Response | omni.py:415-439 | The generated text on a 200 reply with a `response` field. Every other outcome (other status, bad JSON, missing field, connection error, timeout, other request error) is a string starting with `Error:`. |
| Omni.SeesFailureIff | omni.py:18-20 | Callers see a failure exactly when the request failed or the model's own text starts with `Error:`. |
| Omni.Register | omni.py:343-353 | The registry grows by at most one entry at its end and keeps earlier entries. It grows exactly when the name is new. Name uniqueness is preserved. |
| Omni.HandleAddCapability | omni.py:308-355 | A plan starting with `Error:` leaves the registry unchanged and reports the failure. Any other plan registers a general capability, unless the name is taken, and reports the plan. |
| Omni.HandleAddMcpTool | omni.py:357-413 | Invalid configuration JSON is reported before any model call, and the registry is unchanged. Otherwise it works as for `add`, with the decoded configuration kept in the new entry. |
| Omni.InvalidConfigSkipsModel | omni.py:365-370 | With invalid configuration JSON the outcome does not depend on the model. |
| Omni.ConcatAppend | omni.py:492-499 | Accumulating lines with `+=` over two parts gives the two accumulations one after the other. |
| Omni.ListingHasLine | omni.py:488-501 | Each entry's line sits in the listing between the lines of the entries before and after it. |
| Omni.HelpPrompt | omni.py:474-503 | The help prompt starts with the base paragraph. It is the base followed by the hint on adding capabilities exactly when the registry is empty. Every registered capability's line occurs in it. `main` builds the same prompt for its log. |
| Omni.DisplayHelp | omni.py:468-507 | What `display_help` prints comes from its own request, the run's second: the generated text when that request is answered, otherwise a string starting with `Error:`. |
| Omni.ShowTransactions | omni.py:454-465 | `No transactions to display for this session.` is returned exactly when the log is empty. |
| Omni.LogTransaction | omni.py:449-452 | The log grows by one entry at its end. |
| Omni.HelpResponse | omni.py:593-598 | The logged help response is the failure message plus the output of `main`'s own request for the help prompt, the run's first, exactly when that output starts with `Error:`. |
| Omni.Respond | omni.py:560-634 | Help, whether asked for or the default, logs the help response for the run's first request and leaves the registry unchanged. Any other recognised command is answered by its command branch. No command with something left over reports the first leftover. Every branch sets a non-empty response. The registry only grows, and names stay unique. |
| Omni.CommandResponse | omni.py:602-619 | `add` and `add_mcp_tool` with all arguments non-empty go to their handlers. A missing argument is reported with that command's missing-arguments message and leaves the registry unchanged. `show_transactions` goes to its handler. Every branch sets a non-empty response. The registry only grows, and names stay unique. |
| Omni.Main | omni.py:510-665 | `show_design_workflow` raises and logs nothing. Every other command appends exactly one transaction: the full command line, the timestamp and a non-empty response. The registry left behind is exactly the one the command's branch built. It keeps its entries and unique names. |
| Omni.LoggedResponseIsTheCommands | omni.py:660-665 | The default response is never logged: the logged response is the command's own, and the registry left behind is the one its branch built. |
| Omni.AddRunRegisters | omni.py:308-355 | A run of `add` with both arguments, a name not yet registered and a plan that is not an `Error:` text leaves the registry with one general capability appended: the name, the description and that plan. |
| Omni.HelpLogDependsOnFirstReply | omni.py:560-598 | Help is the default when there is no command and nothing is left over. It never changes the registry, and what it logs depends only on the reply to `main`'s own request. |
| Omni.HelpLogCanDisagreeWithScreen | omni.py:593-600 | The two help requests can disagree. If the first is answered and the second times out, the log says help was displayed while the user was shown the timeout error. |
| Omni.UnknownCommandReported | omni.py:624-634 | With no command and something left over, the response is `Reported unknown command: <first leftover>`. |
| Omni.ShowTransactionsReportsEmptyLog | omni.py:618-619 | `show_transactions` reports an empty log exactly when the log is empty. |
| Omni.FreshProcessHasNothingToShow | omni.py:14 | A run starts from an empty session, so `show_transactions` always logs "no transactions" and help never lists a capability. |
| Omni.RunAll | omni.py:449-452 | A hypothetical composition, since each run of the program is a fresh process. Across runs sharing one session, each with its own model replies, the log grows by one entry per run that does not raise. Names stay unique and existing entries are kept. |

## Left out

- HTTP, the Anthropic and Gemini SDKs, the DuckDB subprocess and `json.loads` are oracles (function parameters). Their internals, timeouts and retries are not modelled. In particular, sfa_duckdb_gemini_v2.py:375-381 leaves the SDK's automatic function calling enabled alongside `mode="ANY"`. The SDK could then run the tools, `run_final_sql_query` included, inside `generate_content` before the loop sees the reply. The model assumes every call reaches the loop.
- Command-line parsing (`argparse`), environment variables, `sys.exit`, Rich console output and everything printed are not modelled. Rich parses markup in printed text, so model output holding an unmatched closing tag such as `[/INST]` raises `MarkupError`. At sfa_ollama_delegator_agent.py:296 that would turn a good Ollama output into the `Error executing tool ... internally:` text, and at line 260 it would end `main`. Neither is modelled. Routing starts from the recognised command and the leftover arguments. With `add_subparsers(dest='command')` (omni.py:522), a bare word such as `omni foobar` is rejected by `argparse` as an invalid choice, which exits with status 2 and logs nothing. Only an option-like leftover such as `--x` reaches the unknown-command report, whatever the comment at omni.py:552-553 says.
- Prompt wording is not modelled. Omni's prompts are modelled by the inputs that go into them, and the fixed paragraph at the start of the help prompt is a parameter. The Gemini agent template is a parameter; only its `{{user_request}}` placeholder matters.
- Timestamps are opaque strings, and `DESIGN_WORKFLOW_DOCS` is not modelled.
- The JSON values handled are integers, strings, booleans, null, arrays and objects. Floating point is not modelled.
- Omni.Qwen3Response: assumes a `response` field, when present, is a string. A non-string value would make the caller's `startswith` raise. A body that decodes to something other than an object is not modelled either.
- Delegator.ReplyOutcome: assumes the body's `response` is a string when present. An error body whose `error` field is not a string is not modelled.
- DuckDbAgent.ListTables: the DuckDB `.tables` output itself is not modelled. With several names on one line, that line is taken as one name, as the code does.
- The Gemini model content and the tool results are opaque. `str(result)` of a list returned by a tool is a string the handler oracle produces.
- The Gemini run is modelled until it returns or raises. The exception from the budget check and the re-raised model exception are endings of the run, not further control flow.
- Omni's `show_design_workflow` branch calls a function that does not exist, so it raises `NameError` and logs nothing. It is modelled as a crash.
- Omni's "recognised but not handled" fallback is not modelled, because every recognised command has a branch.
- What `display_help` prints is not part of the session state. `Omni.DisplayHelp` gives the printed text, and it is not in the log.
- The Python 3.11 wording of `UnboundLocalError` is used for `DuckDbAgent.UnboundResultMessage`. Python 3.10 and earlier say `local variable 'result' referenced before assignment`, and the script does not pin a Python version.
- The delegator's `OLLAMA_BASE_URL` and omni's `ADDED_CAPABILITIES` and `TRANSACTIONS_LOG` are explicit parameters or state.

## Notes on the code as written

- For help, `main` logs the outcome of its own request and `display_help` then sends a second request and prints that reply. The log can say that help was displayed while the user saw an error, or the other way round (`Omni.HelpLogCanDisagreeWithScreen`).
- In the Gemini loop, a function name that is not one of the five tools reaches the `function_response = {"result": str(result)}` line. That line then uses whatever `result` the last successful tool call left behind, or raises `UnboundLocalError` when there is none; the `except` clause turns that into an error entry. The model follows the code (`DuckDbAgent.ProcessCalls`, `DuckDbAgent.UnknownCallRepeatsLastResult`).
- With requests 2.27 and later, a 2xx reply whose body is not JSON raises an exception that is also a `RequestException`. The delegator catches it in that clause before its own `json.JSONDecodeError` clause. `Delegator.OllamaReply` keeps both outcomes.


=== FILE: delegator.dfy ===
/**
 The Ollama delegator agent: a primary model (reached through an Anthropic
 style messages API) answers a user prompt and may call one tool,
 `run_ollama_generate`, which forwards a generation request to a local Ollama
 server. The agent loop appends every model reply to the history, answers all
 tool calls of a reply in one user turn, and stops on a final text answer, an
 empty turn, an API error or an exhausted loop budget.

 The primary model and the Ollama HTTP endpoint are oracles: the model is a
 function from the history sent to the reply (or API error), the Ollama
 endpoint a function from the request sent to the reply received.
 */
module Delegator {
  import opened Wrappers
  import opened Text
  import opened Json

  const OllamaToolName := "run_ollama_generate"
  const GeneratePath := "/api/generate"

  const NotConfiguredError := ErrorText(" OLLAMA_BASE_URL is not configured.")
  const DecodeFailedError :=
    ErrorText(" Could not decode JSON response from Ollama API, even though request seemed successful.")
  const MissingArgumentsError :=
    ErrorText(" 'model_name' and 'prompt' are required for " + OllamaToolName + ".")

  function UnknownToolError(name: string): string {
    ErrorText(" Unknown tool '" + name + "' called by LLM.")
  }

  // ---------------------------------------------------------------------------
  // The Ollama tool
  // ---------------------------------------------------------------------------

  /** One POST to the Ollama generate endpoint: its URL and JSON payload. */
  datatype OllamaRequest = OllamaRequest(url: string, payload: map<string, Value>)

  /** The body of an HTTP error response: JSON (with or without an `error`
      field) or something that does not decode as JSON. */
  datatype ErrorBody = JsonErrorBody(error: Option<string>) | TextBody

  /** What one POST can come back with, named after the exception the code
      catches. `RequestFailed` is any other `requests` exception; with
      requests 2.27 and later that includes a 2xx body that is not JSON.
      `UndecodableBody` is a plain `json.JSONDecodeError` (older requests).
      `Escaped` is an exception none of the handlers catches. */
  datatype OllamaReply =
    | Generated(response: Option<string>)
    | TimedOut
    | ConnectionRefused
    | HttpFailure(status: int, body: ErrorBody, text: string)
    | RequestFailed(message: string)
    | UndecodableBody
    | Escaped(message: string)

  type OllamaTransport = OllamaRequest -> OllamaReply

  /** The outcome of calling the tool function: a returned string or a raised exception. */
  datatype ToolRun = Returned(text: string) | Raised(message: string)

  function OllamaUrl(base: string): string {
    base + GeneratePath
  }

  /** The generate payload: always the model, the prompt and `stream: false`;
      `system` only for a truthy system prompt; `options.num_ctx` only for a
      truthy context window. */
  function OllamaPayload(model: Value, prompt: Value, system: Value, contextWindow: Value): (p: map<string, Value>)
    ensures p.Keys == {"model", "prompt", "stream"}
                      + (if Truthy(system) then {"system"} else {})
                      + (if Truthy(contextWindow) then {"options"} else {})
    ensures p["model"] == model && p["prompt"] == prompt && p["stream"] == JBool(false)
    ensures "system" in p ==> p["system"] == system
    ensures "options" in p ==> p["options"] == JObject(map["num_ctx" := contextWindow])
  {
    var required := map["model" := model, "prompt" := prompt, "stream" := JBool(false)];
    var withSystem := if Truthy(system) then required["system" := system] else required;
    WithOptional(withSystem, "options", Truthy(contextWindow), JObject(map["num_ctx" := contextWindow]))
  }

  /** `d[key] = value` performed only when `present` holds. */
  function WithOptional(d: map<string, Value>, key: string, present: bool, value: Value): (r: map<string, Value>)
    requires key !in d
    ensures r.Keys == d.Keys + (if present then {key} else {})
    ensures forall k :: k in d ==> r[k] == d[k]
    ensures key in r ==> r[key] == value
  {
    if present then d[key := value] else d
  }

  /** A reply that is a transport or HTTP failure the tool reports as text. */
  predicate IsTransportFailure(reply: OllamaReply) {
    !reply.Generated? && !reply.Escaped?
  }

  /** How the tool turns a reply into its result: the generated text (empty
      when the body has no `response`), an `"Error: ..."` string for every
      failure it catches, or the exception it does not catch. */
  function ReplyOutcome(url: string, reply: OllamaReply): (r: ToolRun)
    ensures IsTransportFailure(reply) ==> r.Returned? && StartsWith(r.text, "Error:")
    ensures reply.Generated? ==> r == Returned(reply.response.GetOr(""))
    ensures reply.Escaped? <==> r.Raised?
  {
    match reply
    case Generated(response) => Returned(response.GetOr(""))
    case TimedOut =>
      Returned(ErrorText(" Timeout after 120s connecting to Ollama API at " + url + "."))
    case ConnectionRefused =>
      Returned(ErrorText(" Connection refused by Ollama API at " + url + ". Is Ollama running and accessible?"))
    case HttpFailure(status, body, text) =>
      var detail := if body.JsonErrorBody? && body.error.Some? then body.error.value else text;
      Returned(ErrorText(" Ollama API request failed with status " + IntToString(status) + ". Detail: " + detail))
    case RequestFailed(message) =>
      Returned(ErrorText(" An unexpected error occurred with the Ollama API request: " + message))
    case UndecodableBody => Returned(DecodeFailedError)
    case Escaped(message) => Raised(message)
  }

  /** The tool function. An empty base URL is reported without any request. */
  function RunOllamaGenerate(base: string, model: Value, prompt: Value, system: Value, contextWindow: Value,
                             transport: OllamaTransport): (r: ToolRun)
    ensures base == "" ==> r == Returned(NotConfiguredError)
    ensures base != "" && IsTransportFailure(transport(OllamaRequest(OllamaUrl(base), OllamaPayload(model, prompt, system, contextWindow))))
            ==> r.Returned? && StartsWith(r.text, "Error:")
    ensures base != "" ==>
              var reply := transport(OllamaRequest(OllamaUrl(base), OllamaPayload(model, prompt, system, contextWindow)));
              (reply.Generated? ==> r == Returned(reply.response.GetOr(""))) &&
              (reply.Escaped? ==> r == Raised(reply.message))
  {
    if base == "" then Returned(NotConfiguredError)
    else
      var url := OllamaUrl(base);
      ReplyOutcome(url, transport(OllamaRequest(url, OllamaPayload(model, prompt, system, contextWindow))))
  }

  /** The only request the tool can send: two transports that agree on it
      give the same result, and without a base URL no transport matters. */
  lemma GenerateSendsOnlyItsRequest(base: string, model: Value, prompt: Value, system: Value, contextWindow: Value,
                                    t1: OllamaTransport, t2: OllamaTransport)
    requires base == "" || t1(OllamaRequest(base + "/api/generate", OllamaPayload(model, prompt, system, contextWindow)))
                        == t2(OllamaRequest(base + "/api/generate", OllamaPayload(model, prompt, system, contextWindow)))
    ensures RunOllamaGenerate(base, model, prompt, system, contextWindow, t1)
         == RunOllamaGenerate(base, model, prompt, system, contextWindow, t2)
  {
  }

  // ---------------------------------------------------------------------------
  // Conversation
  // ---------------------------------------------------------------------------

  /** A content block of a model reply. `OtherBlock` stands for any block type
      the loop neither prints nor answers. */
  datatype Block =
    | TextBlock(text: string)
    | ToolUse(id: string, name: string, input: map<string, Value>)
    | OtherBlock(kind: string)

  datatype ToolResult = ToolResult(toolUseId: string, content: string)

  /** A history entry: the user's prompt, a model reply kept verbatim, or the
      user turn answering the reply's tool calls. */
  datatype Message =
    | UserPrompt(prompt: string)
    | Assistant(content: seq<Block>)
    | ToolResults(results: seq<ToolResult>)

  datatype ProviderReply = Response(content: seq<Block>) | ApiError(message: string)

  type Provider = seq<Message> -> ProviderReply

  /** Both required arguments present and truthy. */
  predicate HasRequiredArguments(input: map<string, Value>) {
    Truthy(Get(input, "model_name")) && Truthy(Get(input, "prompt"))
  }

  /** Answering one tool call: always with the call's own id; an unknown tool
      name or a missing required argument is answered with an error text and
      nothing is sent to Ollama. */
  function ExecuteToolUse(base: string, transport: OllamaTransport, call: Block): (r: ToolResult)
    requires call.ToolUse?
    ensures r.toolUseId == call.id
    ensures call.name != OllamaToolName ==> r.content == UnknownToolError(call.name)
    ensures call.name == OllamaToolName && !HasRequiredArguments(call.input) ==> r.content == MissingArgumentsError
    ensures call.name == OllamaToolName && HasRequiredArguments(call.input) ==>
              var run := RunOllamaGenerate(base, Get(call.input, "model_name"), Get(call.input, "prompt"),
                                           Get(call.input, "system_prompt"), Get(call.input, "context_window"), transport);
              r.content == (if run.Returned? then run.text
                            else "Error executing tool " + OllamaToolName + " internally: " + run.message)
  {
    if call.name == OllamaToolName then
      var input := call.input;
      if !HasRequiredArguments(input) then ToolResult(call.id, MissingArgumentsError)
      else
        var run := RunOllamaGenerate(base, Get(input, "model_name"), Get(input, "prompt"),
                                     Get(input, "system_prompt"), Get(input, "context_window"), transport);
        match run
        case Returned(text) => ToolResult(call.id, text)
        case Raised(message) =>
          ToolResult(call.id, "Error executing tool " + OllamaToolName + " internally: " + message)
    else ToolResult(call.id, UnknownToolError(call.name))
  }

  /** A call that is not a well-formed `run_ollama_generate` call is answered
      the same whatever the Ollama endpoint would do: no request is made. */
  lemma InvalidCallSendsNothing(base: string, t1: OllamaTransport, t2: OllamaTransport, call: Block)
    requires call.ToolUse?
    requires call.name != OllamaToolName || !HasRequiredArguments(call.input) || base == ""
    ensures ExecuteToolUse(base, t1, call) == ExecuteToolUse(base, t2, call)
  {
  }

  /** The tool-use blocks of a reply, in their original order. */
  function ToolUses(content: seq<Block>): (uses: seq<Block>)
    ensures forall k :: 0 <= k < |uses| ==> uses[k].ToolUse?
    ensures |uses| <= |content|
    decreases |content|
  {
    if |content| == 0 then []
    else (if content[0].ToolUse? then [content[0]] else []) + ToolUses(content[1..])
  }

  /** Collecting tool uses commutes with concatenation, so their order is the reply's order. */
  lemma {:induction false} ToolUsesAppend(a: seq<Block>, b: seq<Block>)
    ensures ToolUses(a + b) == ToolUses(a) + ToolUses(b)
    decreases |a|
  {
    if |a| == 0 {
      assert a + b == b;
    } else {
      assert (a + b)[0] == a[0];
      assert (a + b)[1..] == a[1..] + b;
      ToolUsesAppend(a[1..], b);
      var head := if a[0].ToolUse? then [a[0]] else [];
      assert ToolUses(a + b) == head + ToolUses(a[1..] + b);
      assert ToolUses(a) == head + ToolUses(a[1..]);
      assert head + (ToolUses(a[1..]) + ToolUses(b)) == (head + ToolUses(a[1..])) + ToolUses(b);
    }
  }

  /** A reply asks for no tool exactly when none of its blocks is a tool use. */
  lemma {:induction false} ToolUsesEmpty(content: seq<Block>)
    ensures ToolUses(content) == [] <==> forall k :: 0 <= k < |content| ==> !content[k].ToolUse?
    decreases |content|
  {
    if |content| > 0 {
      ToolUsesEmpty(content[1..]);
      assert forall k :: 1 <= k < |content| ==> content[k] == content[1..][k - 1];
    }
  }

  /** The reply holds a text block that is not blank after `strip()`. */
  predicate HasFinalText(content: seq<Block>) {
    exists i :: 0 <= i < |content| && content[i].TextBlock? && Strip(content[i].text) != ""
  }

  /** Answering the tool uses of one reply, one result per call, in order. */
  function ExecuteAll(base: string, transport: OllamaTransport, uses: seq<Block>): (results: seq<ToolResult>)
    requires forall k :: 0 <= k < |uses| ==> uses[k].ToolUse?
    ensures |results| == |uses|
    ensures forall k :: 0 <= k < |uses| ==> results[k] == ExecuteToolUse(base, transport, uses[k])
    decreases |uses|
  {
    if |uses| == 0 then []
    else [ExecuteToolUse(base, transport, uses[0])] + ExecuteAll(base, transport, uses[1..])
  }

  /** `results` answers every tool use of `content` exactly once, by id, in order. */
  predicate Answers(content: seq<Block>, results: seq<ToolResult>) {
    var uses := ToolUses(content);
    |results| == |uses| && forall k :: 0 <= k < |uses| ==> results[k].toolUseId == uses[k].id
  }

  /** How a turn's tool uses get answered: the user turn sent back for a reply. */
  type Answerer = seq<Block> -> seq<ToolResult>

  /** The answerer replies to every tool use of every reply exactly once, by id, in order. */
  ghost predicate AnswersAll(answer: Answerer) {
    forall content :: Answers(content, answer(content))
  }

  /** The agent's answerer: run each tool use of the reply through the dispatch. */
  function ToolAnswers(base: string, transport: OllamaTransport): (answer: Answerer)
    ensures AnswersAll(answer)
    ensures forall content :: answer(content) == ExecuteAll(base, transport, ToolUses(content))
  {
    var answer := content => ExecuteAll(base, transport, ToolUses(content));
    assert forall content :: Answers(content, answer(content)) by {
      forall content ensures Answers(content, answer(content)) {
        var uses := ToolUses(content);
        var results := ExecuteAll(base, transport, uses);
        assert answer(content) == results;
        forall k | 0 <= k < |uses| ensures results[k].toolUseId == uses[k].id {
          assert results[k] == ExecuteToolUse(base, transport, uses[k]);
        }
      }
    }
    answer
  }

  /** The shape of the history after the user's prompt: each reply with tool
      uses is followed at once by the user turn answering them; a reply
      without tool uses is the last entry. */
  predicate Transcript(ms: seq<Message>)
    decreases |ms|
  {
    |ms| == 0 ||
    (ms[0].Assistant? &&
     if |ToolUses(ms[0].content)| == 0 then |ms| == 1
     else |ms| >= 2 && ms[1].ToolResults? && Answers(ms[0].content, ms[1].results) && Transcript(ms[2..]))
  }

  /** A transcript of even, non-zero length ends with a tool-result turn. */
  lemma {:induction false} EvenTranscriptEndsWithResults(ms: seq<Message>, pairs: nat)
    requires Transcript(ms) && pairs > 0 && |ms| == 2 * pairs
    ensures ms[|ms| - 1].ToolResults?
    decreases pairs
  {
    if pairs > 1 {
      EvenTranscriptEndsWithResults(ms[2..], pairs - 1);
      assert ms[2..][|ms| - 3] == ms[|ms| - 1];
    }
  }

  // ---------------------------------------------------------------------------
  // The agent loop
  // ---------------------------------------------------------------------------

  datatype StopReason = FinalAnswer | NoOpTurn | ProviderFailed(message: string) | LoopsExhausted

  /** A finished run: the history, the last value of `loop_count`, and why it stopped. */
  datatype Run = Run(messages: seq<Message>, loopCount: int, stop: StopReason)

  /** Iterations `i`, `i + 1`, ... of the loop (`loop_count == i` on entry):
      the history only grows, and `loop_count` ends between `i` and the budget. */
  function AgentLoop(answer: Answerer, provider: Provider, maxLoops: int,
                     messages: seq<Message>, i: nat): (r: Run)
    ensures |messages| <= |r.messages| && r.messages[..|messages|] == messages
    ensures i <= r.loopCount <= (if maxLoops > i then maxLoops else i)
    decreases maxLoops - i
  {
    if i >= maxLoops then Run(messages, i, LoopsExhausted)
    else
      match provider(messages)
      case ApiError(message) => Run(messages, i + 1, ProviderFailed(message))
      case Response(content) =>
        var withReply := messages + [Assistant(content)];
        var uses := ToolUses(content);
        if |uses| == 0 && HasFinalText(content) then Run(withReply, i + 1, FinalAnswer)
        else if |uses| > 0 then
          var next := withReply + [ToolResults(answer(content))];
          var r := AgentLoop(answer, provider, maxLoops, next, i + 1);
          assert r.messages[..|next|][..|messages|] == next[..|messages|];
          r
        else Run(withReply, i + 1, NoOpTurn)
  }

  /** What one iteration appends when the reply asks for tools: the reply,
      then one user turn answering all of its tool uses. */
  function ToolTurn(answer: Answerer, content: seq<Block>): seq<Message>
  {
    [Assistant(content), ToolResults(answer(content))]
  }

  /** Everything the loop appends is in transcript shape: every tool use is
      answered by exactly one result with its id, in order, in the very next
      entry, and a reply without tool uses is the last entry. */
  lemma {:induction false} LoopKeepsTranscript(answer: Answerer, provider: Provider,
                                               maxLoops: int, messages: seq<Message>, i: nat)
    requires AnswersAll(answer)
    ensures var r := AgentLoop(answer, provider, maxLoops, messages, i);
            Transcript(r.messages[|messages|..]) && RepliesVerbatim(provider, r.messages, |messages|)
    decreases maxLoops - i
  {
    LoopRepliesVerbatim(answer, provider, maxLoops, messages, i);
    var r := AgentLoop(answer, provider, maxLoops, messages, i);
    if i < maxLoops && provider(messages).Response? {
      var content := provider(messages).content;
      var uses := ToolUses(content);
      if |uses| > 0 {
        var turn := ToolTurn(answer, content);
        var next := messages + turn;
        assert messages + [Assistant(content)] + [turn[1]] == next;
        LoopKeepsTranscript(answer, provider, maxLoops, next, i + 1);
        assert r.messages[|messages|..|next|] == turn;
        assert r.messages[|messages|..] == turn + r.messages[|next|..];
        assert (turn + r.messages[|next|..])[2..] == r.messages[|next|..];
      } else {
        assert r.messages[|messages|..] == [Assistant(content)];
      }
    }
  }

  /** Every reply from index `from` on is what the provider returned for the
      history before it, kept verbatim. */
  predicate RepliesVerbatim(provider: Provider, ms: seq<Message>, from: nat) {
    forall k :: from <= k < |ms| && ms[k].Assistant? ==> provider(ms[..k]) == Response(ms[k].content)
  }

  /** Each reply the loop appends is the provider's reply for the history it
      was sent, appended as it came. */
  lemma {:induction false} LoopRepliesVerbatim(answer: Answerer, provider: Provider,
                                               maxLoops: int, messages: seq<Message>, i: nat)
    ensures RepliesVerbatim(provider, AgentLoop(answer, provider, maxLoops, messages, i).messages, |messages|)
    decreases maxLoops - i
  {
    var r := AgentLoop(answer, provider, maxLoops, messages, i);
    if i < maxLoops && provider(messages).Response? {
      var content := provider(messages).content;
      var withReply := messages + [Assistant(content)];
      assert r.messages[..|withReply|] == withReply by {
        if |ToolUses(content)| > 0 {
          var next := withReply + [ToolResults(answer(content))];
          assert r.messages[..|next|][..|withReply|] == next[..|withReply|];
        }
      }
      assert r.messages[|messages|] == Assistant(content) && r.messages[..|messages|] == messages by {
        assert r.messages[..|withReply|][|messages|] == withReply[|messages|];
        assert r.messages[..|withReply|][..|messages|] == withReply[..|messages|];
      }
      if |ToolUses(content)| > 0 {
        var next := withReply + [ToolResults(answer(content))];
        LoopRepliesVerbatim(answer, provider, maxLoops, next, i + 1);
        assert r.messages[|messages| + 1] == ToolResults(answer(content)) by {
          assert r.messages[..|next|][|messages| + 1] == next[|messages| + 1];
        }
      }
    }
  }

  /** Every tool-result turn from index `from` on comes right after a reply
      and holds exactly what the answerer produced for that reply. */
  predicate ResultsVerbatim(answer: Answerer, ms: seq<Message>, from: nat) {
    forall k :: from <= k < |ms| && ms[k].ToolResults? ==>
      from < k && ms[k - 1].Assistant? && ms[k].results == answer(ms[k - 1].content)
  }

  /** The user turn the loop sends back after a reply with tool uses is the
      answerer's output for that reply, unchanged. */
  lemma {:induction false} LoopResultsVerbatim(answer: Answerer, provider: Provider,
                                               maxLoops: int, messages: seq<Message>, i: nat)
    ensures ResultsVerbatim(answer, AgentLoop(answer, provider, maxLoops, messages, i).messages, |messages|)
    decreases maxLoops - i
  {
    var r := AgentLoop(answer, provider, maxLoops, messages, i);
    if i < maxLoops && provider(messages).Response? {
      var content := provider(messages).content;
      var withReply := messages + [Assistant(content)];
      if |ToolUses(content)| > 0 {
        var next := withReply + [ToolResults(answer(content))];
        LoopResultsVerbatim(answer, provider, maxLoops, next, i + 1);
        assert r.messages[|messages|] == Assistant(content) && r.messages[|messages| + 1] == ToolResults(answer(content)) by {
          assert r.messages[..|next|][|messages|] == next[|messages|];
          assert r.messages[..|next|][|messages| + 1] == next[|messages| + 1];
        }
      } else {
        assert r.messages[|messages|..] == [Assistant(content)];
      }
    }
  }

  /** How the loop ends. Each iteration makes one provider call, so there are
      `loopCount - i` calls. An exhausted budget follows only tool turns; a
      failed call appends nothing, so the history is what the failing call
      was sent; a final or empty reply is the last entry and is exactly what
      the provider returned for the history before it. */
  lemma {:induction false} LoopEnding(answer: Answerer, provider: Provider,
                                      maxLoops: int, messages: seq<Message>, i: nat)
    ensures var r := AgentLoop(answer, provider, maxLoops, messages, i);
            && (r.stop == LoopsExhausted ==>
                  && r.loopCount == (if maxLoops > i then maxLoops else i)
                  && |r.messages| == |messages| + 2 * (r.loopCount - i))
            && (r.stop.ProviderFailed? ==>
                  && i < r.loopCount
                  && |r.messages| == |messages| + 2 * (r.loopCount - i - 1)
                  && provider(r.messages) == ApiError(r.stop.message))
            && (r.stop == FinalAnswer || r.stop == NoOpTurn ==>
                  && i < r.loopCount
                  && |r.messages| == |messages| + 2 * (r.loopCount - i) - 1
                  && LastIsClosingReply(provider, r.messages, r.stop == FinalAnswer))
    decreases maxLoops - i
  {
    var r := AgentLoop(answer, provider, maxLoops, messages, i);
    if i < maxLoops && provider(messages).Response? {
      var content := provider(messages).content;
      var withReply := messages + [Assistant(content)];
      assert withReply[..|withReply| - 1] == messages;
      if |ToolUses(content)| > 0 {
        var next := messages + ToolTurn(answer, content);
        assert withReply + [ToolResults(answer(content))] == next;
        LoopEnding(answer, provider, maxLoops, next, i + 1);
      }
    }
  }

  /** The last entry is a reply without tool uses, returned by the provider
      for the history before it, with non-blank text exactly when `final`. */
  predicate LastIsClosingReply(provider: Provider, ms: seq<Message>, final: bool) {
    && |ms| > 0
    && var last := ms[|ms| - 1];
    && last.Assistant?
    && provider(ms[..|ms| - 1]) == Response(last.content)
    && |ToolUses(last.content)| == 0
    && (HasFinalText(last.content) <==> final)
  }

  /** The run of `main` for a given way of answering tool uses: the history
      starts with the user's prompt, then the loop runs with `max_loops`
      iterations at most. */
  function RunAgent(answer: Answerer, provider: Provider, prompt: string, maxLoops: int): (r: Run)
    ensures |r.messages| >= 1 && r.messages[0] == UserPrompt(prompt)
    ensures AnswersAll(answer) ==> Transcript(r.messages[1..])
    ensures RepliesVerbatim(provider, r.messages, 1)
    ensures ResultsVerbatim(answer, r.messages, 1)
    ensures 0 <= r.loopCount <= (if maxLoops > 0 then maxLoops else 0)
  {
    RunKeepsTranscript(answer, provider, prompt, maxLoops);
    LoopRepliesVerbatim(answer, provider, maxLoops, [UserPrompt(prompt)], 0);
    LoopResultsVerbatim(answer, provider, maxLoops, [UserPrompt(prompt)], 0);
    AgentLoop(answer, provider, maxLoops, [UserPrompt(prompt)], 0)
  }

  lemma RunKeepsTranscript(answer: Answerer, provider: Provider, prompt: string, maxLoops: int)
    ensures AnswersAll(answer) ==>
              Transcript(AgentLoop(answer, provider, maxLoops, [UserPrompt(prompt)], 0).messages[1..])
  {
    if AnswersAll(answer) {
      LoopKeepsTranscript(answer, provider, maxLoops, [UserPrompt(prompt)], 0);
    }
  }

  /** `main` itself: tool uses are answered by the dispatch, against the
      configured base URL and the Ollama endpoint. */
  function RunDelegator(base: string, transport: OllamaTransport, provider: Provider, prompt: string, maxLoops: int): (r: Run)
    ensures |r.messages| >= 1 && r.messages[0] == UserPrompt(prompt)
    ensures Transcript(r.messages[1..])
    ensures RepliesVerbatim(provider, r.messages, 1)
    ensures forall k :: 1 <= k < |r.messages| && r.messages[k].ToolResults? ==>
              1 < k && r.messages[k - 1].Assistant? &&
              r.messages[k].results == ExecuteAll(base, transport, ToolUses(r.messages[k - 1].content))
    ensures 0 <= r.loopCount <= (if maxLoops > 0 then maxLoops else 0)
  {
    var r := RunAgent(ToolAnswers(base, transport), provider, prompt, maxLoops);
    DispatchedResults(base, transport, r.messages);
    r
  }

  /** Under the agent's own answerer, every answered turn is the dispatch of
      the tool uses of the reply before it. */
  lemma DispatchedResults(base: string, transport: OllamaTransport, ms: seq<Message>)
    requires ResultsVerbatim(ToolAnswers(base, transport), ms, 1)
    ensures forall k :: 1 <= k < |ms| && ms[k].ToolResults? ==>
              1 < k && ms[k - 1].Assistant? &&
              ms[k].results == ExecuteAll(base, transport, ToolUses(ms[k - 1].content))
  {
    var answer := ToolAnswers(base, transport);
    forall k | 1 <= k < |ms| && ms[k].ToolResults?
      ensures 1 < k && ms[k - 1].Assistant?
      ensures ms[k].results == ExecuteAll(base, transport, ToolUses(ms[k - 1].content))
    {
      assert ms[k].results == answer(ms[k - 1].content);
    }
  }

  /** The closing report of `main`: success, "reached maximum agent loops",
      or "concluded without delivering a final answer". */
  datatype Verdict = Completed | MaxLoopsReached | EndedEarly

  function Classify(r: Run, maxLoops: int): Verdict {
    if r.stop == FinalAnswer then Completed
    else if r.loopCount == maxLoops then MaxLoopsReached
    else EndedEarly
  }

  /** Success holds exactly when the last history entry is a reply with no
      tool use and a non-blank text block. */
  lemma SuccessIffFinalText(answer: Answerer, provider: Provider, prompt: string, maxLoops: int)
    requires AnswersAll(answer)
    ensures var r := RunAgent(answer, provider, prompt, maxLoops);
            Classify(r, maxLoops) == Completed <==> LastIsClosingReply(provider, r.messages, true)
  {
    var r := RunAgent(answer, provider, prompt, maxLoops);
    if r.stop == FinalAnswer || r.stop == NoOpTurn {
      ReplyEndingIsClosing(answer, provider, prompt, maxLoops);
    } else {
      NoClosingReplyAfterBreak(answer, provider, prompt, maxLoops);
    }
  }

  /** A run that stops on a reply ends with that reply, final exactly when the stop is. */
  lemma ReplyEndingIsClosing(answer: Answerer, provider: Provider, prompt: string, maxLoops: int)
    requires var r := RunAgent(answer, provider, prompt, maxLoops); r.stop == FinalAnswer || r.stop == NoOpTurn
    ensures var r := RunAgent(answer, provider, prompt, maxLoops);
            LastIsClosingReply(provider, r.messages, r.stop == FinalAnswer)
  {
    LoopEnding(answer, provider, maxLoops, [UserPrompt(prompt)], 0);
  }

  /** A run that stops on an API error or on the budget does not end with a reply. */
  lemma {:induction false} NoClosingReplyAfterBreak(answer: Answerer, provider: Provider, prompt: string, maxLoops: int)
    requires AnswersAll(answer)
    requires var r := RunAgent(answer, provider, prompt, maxLoops); r.stop == LoopsExhausted || r.stop.ProviderFailed?
    ensures var r := RunAgent(answer, provider, prompt, maxLoops);
            !LastIsClosingReply(provider, r.messages, true)
  {
    var r := RunAgent(answer, provider, prompt, maxLoops);
    LoopEnding(answer, provider, maxLoops, [UserPrompt(prompt)], 0);
    var pairs: nat := if r.stop == LoopsExhausted then r.loopCount else r.loopCount - 1;
    assert |r.messages| == 1 + 2 * pairs;
    NoReplyAfterEvenTail(r.messages, pairs);
  }

  /** A history whose part after the prompt is an even-length transcript does
      not end with a model reply. */
  lemma NoReplyAfterEvenTail(ms: seq<Message>, pairs: nat)
    requires |ms| == 1 + 2 * pairs && ms[0].UserPrompt? && Transcript(ms[1..])
    ensures !ms[|ms| - 1].Assistant?
  {
    var tail := ms[1..];
    if pairs > 0 {
      EvenTranscriptEndsWithResults(tail, pairs);
      assert ms[|ms| - 1] == tail[|tail| - 1];
    }
  }

  /** How each way of stopping is reported. In particular an API error in the
      last permitted iteration reads as "maximum loops reached", and a
      negative budget reads as an early end. */
  lemma ClassifyStops(answer: Answerer, provider: Provider, prompt: string, maxLoops: int)
    ensures var r := RunAgent(answer, provider, prompt, maxLoops);
            && (r.stop == LoopsExhausted ==> Classify(r, maxLoops) == (if maxLoops >= 0 then MaxLoopsReached else EndedEarly))
            && (r.stop.ProviderFailed? ==> (Classify(r, maxLoops) == MaxLoopsReached <==> r.loopCount == maxLoops))
            && (r.stop == NoOpTurn ==> (Classify(r, maxLoops) == MaxLoopsReached <==> r.loopCount == maxLoops))
  {
    LoopEnding(answer, provider, maxLoops, [UserPrompt(prompt)], 0);
  }

  /** A provider that asks for a tool on every turn exhausts the budget: the
      run makes exactly `max(0, max_loops)` calls and ends as
      `LoopsExhausted`. */
  lemma {:induction false} AlwaysToolsExhaustsBudget(answer: Answerer, provider: Provider,
                                                     maxLoops: int, messages: seq<Message>, i: nat)
    requires forall h :: provider(h).Response? && |ToolUses(provider(h).content)| > 0
    ensures var r := AgentLoop(answer, provider, maxLoops, messages, i);
            r.stop == LoopsExhausted && r.loopCount == (if maxLoops > i then maxLoops else i)
    decreases maxLoops - i
  {
    if i < maxLoops {
      var content := provider(messages).content;
      var next := messages + ToolTurn(answer, content);
      assert messages + [Assistant(content)] + [ToolResults(answer(content))] == next;
      AlwaysToolsExhaustsBudget(answer, provider, maxLoops, next, i + 1);
    }
  }

  /** With a budget of one or more, a first reply that is plain text ends the
      run successfully after exactly one call. */
  lemma {:induction false} FirstTextReplyCompletes(answer: Answerer, provider: Provider, prompt: string,
                                                    maxLoops: int, content: seq<Block>, i: nat)
    requires maxLoops >= 1
    requires provider([UserPrompt(prompt)]) == Response(content)
    requires forall k :: 0 <= k < |content| ==> !content[k].ToolUse?
    requires i < |content| && content[i].TextBlock? && !AllSpace(content[i].text)
    ensures var r := RunAgent(answer, provider, prompt, maxLoops);
            r.stop == FinalAnswer && r.loopCount == 1 && r.messages == [UserPrompt(prompt), Assistant(content)]
            && Classify(r, maxLoops) == Completed
  {
    ToolUsesEmpty(content);
    assert HasFinalText(content);
    var first := [UserPrompt(prompt)];
    assert AgentLoop(answer, provider, maxLoops, first, 0) == Run(first + [Assistant(content)], 1, FinalAnswer);
  }
}

=== FILE: duckdb_agent.dfy ===
/**
 The DuckDB agent driven by Gemini: the history starts with the agent
 template, the user's request spliced in; each iteration first counts itself
 against the compute budget, then asks the model, runs the function calls of
 the reply in order, and appends the model content and a `tool` entry per
 call. A successful `run_final_sql_query` ends the run at once.

 Gemini is an oracle from the history sent to the reply (or the exception
 raised); the five DuckDB tools are one uninterpreted handler from a call to
 the string `str(result)` or the exception it raised.
 */
module DuckDbAgent {
  import opened Wrappers
  import opened Text
  import opened Json

  const Placeholder := "{{user_request}}"
  const FinalQueryTool := "run_final_sql_query"
  const KnownTools := {"list_tables", "describe_table", "sample_table", "run_test_sql_query", FinalQueryTool}

  /** What `str(e)` reads for the `UnboundLocalError` raised when an unknown
      function name is called before any call of the run set `result`, in the
      wording of Python 3.11 and later. */
  const UnboundResultMessage := "cannot access local variable 'result' where it is not associated with a value"

  // ---------------------------------------------------------------------------
  // The `list_tables` tool's output parsing
  // ---------------------------------------------------------------------------

  /** `list_tables`: the subprocess's stdout stripped and split on newlines, or
      `[]` when running the subprocess raised (`None` here). Blank output gives
      one empty name, as Python's `"".split("\n")` does. */
  function ListTables(stdout: Option<string>): (tables: seq<string>)
    ensures stdout.None? ==> tables == []
    ensures stdout.Some? ==>
              && |tables| >= 1
              && (forall k :: 0 <= k < |tables| ==> '\n' !in tables[k])
              && Join(tables, '\n') == Strip(stdout.value)
  {
    match stdout
    case None => []
    case Some(out) => Split(Strip(out), '\n')
  }

  /** The table list determines the stripped output and vice versa. */
  lemma {:induction false} ListTablesRoundTrip(out: string, tables: seq<string>)
    requires |tables| >= 1 && forall k :: 0 <= k < |tables| ==> '\n' !in tables[k]
    ensures ListTables(Some(out)) == tables <==> Strip(out) == Join(tables, '\n')
  {
    if Strip(out) == Join(tables, '\n') {
      SplitJoin(tables, '\n');
    }
  }

  lemma ListTablesOfBlankOutput(out: string)
    requires AllSpace(out)
    ensures ListTables(Some(out)) == [""]
  {
  }

  // ---------------------------------------------------------------------------
  // History and replies
  // ---------------------------------------------------------------------------

  datatype FunctionCall = FunctionCall(name: string, args: map<string, Value>)

  /** The content of the reply's first candidate, appended to the history as is. */
  datatype ModelContent = ModelContent(text: string, calls: seq<FunctionCall>)

  datatype GeminiResponse = GeminiResponse(functionCalls: seq<FunctionCall>, content: ModelContent)

  /** The function response of a `tool` entry: `{"result": ...}` or `{"error": ...}`. */
  datatype FunctionResponse = ResultPayload(result: string) | ErrorPayload(error: string)

  datatype Entry =
    | UserEntry(text: string)
    | ModelEntry(content: ModelContent)
    | ToolEntry(name: string, response: FunctionResponse)

  datatype Reply = Generated(response: GeminiResponse) | Failed(message: string)

  type Provider = seq<Entry> -> Reply

  /** A tool call returns `str(result)` or raises. */
  datatype HandlerOutcome = Returned(value: string) | Raised(message: string)

  type Handlers = FunctionCall -> HandlerOutcome

  /** The history the run starts from: one user entry, the template with every
      `{{user_request}}` replaced by the request. */
  function InitialHistory(template: string, request: string): seq<Entry> {
    [UserEntry(Replace(template, Placeholder, request))]
  }

  /** When the template holds the placeholder exactly once, at `j`, the first
      entry is the template with the request spliced in there. */
  lemma InitialHistorySplicesRequest(template: string, request: string, j: nat)
    requires forall i :: OccursAt(template, Placeholder, i) <==> i == j
    ensures j + |Placeholder| <= |template|
    ensures InitialHistory(template, request)
            == [UserEntry(template[..j] + request + template[j + |Placeholder|..])]
  {
    ReplaceOnce(template, Placeholder, request, j);
  }

  // ---------------------------------------------------------------------------
  // Handling the function calls of one reply
  // ---------------------------------------------------------------------------

  /** The function response for a known tool's outcome. */
  function CallResponse(name: string, outcome: HandlerOutcome): (r: FunctionResponse)
    ensures outcome.Returned? <==> r.ResultPayload?
    ensures outcome.Returned? ==> r == ResultPayload(outcome.value)
    ensures outcome.Raised? ==> r.error == "Error executing " + name + ": " + outcome.message
  {
    match outcome
    case Returned(value) => ResultPayload(value)
    case Raised(message) => ErrorPayload("Error executing " + name + ": " + message)
  }

  /** This call ends the run: the final query ran and returned. */
  predicate EndsRun(handlers: Handlers, c: FunctionCall) {
    c.name == FinalQueryTool && handlers(c).Returned?
  }

  /** The position of the first call that ends the run, or `|calls|` when none does. */
  function FirstExit(handlers: Handlers, calls: seq<FunctionCall>): (k: nat)
    ensures k <= |calls|
    ensures forall j :: 0 <= j < k ==> !EndsRun(handlers, calls[j])
    ensures k < |calls| ==> EndsRun(handlers, calls[k])
    decreases |calls|
  {
    if |calls| == 0 then 0
    else if EndsRun(handlers, calls[0]) then 0
    else 1 + FirstExit(handlers, calls[1..])
  }

  /** Where the calls of one reply leave the run: going on, with the history and
      the value of the Python variable `result`, or ended by the final query. */
  datatype Step = Continue(history: seq<Entry>, lastResult: Option<string>) | Exit(output: string, history: seq<Entry>)

  /** The `for func_call in response.function_calls` loop, as written: a known
      tool's result or error is appended after the model content; a name that
      is not one of the five tools reuses `result` from the latest call of the
      run that returned, or fails with `UnboundLocalError` when there is none. */
  function ProcessCalls(handlers: Handlers, content: ModelContent, calls: seq<FunctionCall>,
                        history: seq<Entry>, last: Option<string>): (s: Step)
    decreases |calls|
  {
    if |calls| == 0 then Continue(history, last)
    else if EndsRun(handlers, calls[0]) then Exit(handlers(calls[0]).value, history)
    else
      var c := calls[0];
      ProcessCalls(handlers, content, calls[1..],
                   history + [ModelEntry(content), ToolEntry(c.name, ToolReply(handlers, c, last))],
                   LastAfter(handlers, c, last))
  }

  /** The response recorded for a call that does not end the run. */
  function ToolReply(handlers: Handlers, c: FunctionCall, last: Option<string>): FunctionResponse {
    if c.name in KnownTools then CallResponse(c.name, handlers(c))
    else match last
      case Some(value) => ResultPayload(value)
      case None => ErrorPayload("Error executing " + c.name + ": " + UnboundResultMessage)
  }

  /** `result` after a call: what a known tool returned, otherwise unchanged. */
  function LastAfter(handlers: Handlers, c: FunctionCall, last: Option<string>): Option<string> {
    if c.name in KnownTools && handlers(c).Returned? then Some(handlers(c).value) else last
  }

  /** The two entries appended for `c` at position `at`: the model content, then
      a `tool` entry named after the call carrying the tool's result or error. */
  predicate PairAt(h: seq<Entry>, at: nat, content: ModelContent, handlers: Handlers, c: FunctionCall) {
    && at + 1 < |h|
    && h[at] == ModelEntry(content)
    && h[at + 1].ToolEntry?
    && h[at + 1].name == c.name
    && (c.name in KnownTools ==> h[at + 1].response == CallResponse(c.name, handlers(c)))
  }

  /** Calls are handled in order, two entries each, until the first call that
      ends the run; a raising handler does not stop the others; the final
      query appends nothing and its output ends the run. */
  lemma {:induction false} ProcessCallsAppendsPairs(handlers: Handlers, content: ModelContent, calls: seq<FunctionCall>,
                                                    history: seq<Entry>, last: Option<string>)
    ensures var s := ProcessCalls(handlers, content, calls, history, last);
            var k := FirstExit(handlers, calls);
            && (s.Exit? <==> k < |calls|)
            && |s.history| == |history| + 2 * k
            && s.history[..|history|] == history
            && (forall j :: 0 <= j < k ==> PairAt(s.history, |history| + 2 * j, content, handlers, calls[j]))
            && (s.Exit? ==> s.output == handlers(calls[k]).value)
    decreases |calls|
  {
    if |calls| > 0 && !EndsRun(handlers, calls[0]) {
      var c := calls[0];
      var s := ProcessCalls(handlers, content, calls, history, last);
      var last' := LastAfter(handlers, c, last);
      var next := history + [ModelEntry(content), ToolEntry(c.name, ToolReply(handlers, c, last))];
      assert s == ProcessCalls(handlers, content, calls[1..], next, last');
      ProcessCallsAppendsPairs(handlers, content, calls[1..], next, last');
      var k := FirstExit(handlers, calls);
      assert k == 1 + FirstExit(handlers, calls[1..]);
      assert s.history[..|next|] == next;
      assert s.history[..|history|] == history by {
        assert s.history[..|next|][..|history|] == next[..|history|];
      }
      assert PairAt(s.history, |history|, content, handlers, c) by {
        assert s.history[|history|] == next[|history|];
        assert s.history[|history| + 1] == next[|history| + 1];
      }
      forall j | 1 <= j < k
        ensures PairAt(s.history, |history| + 2 * j, content, handlers, calls[j])
      {
        assert calls[j] == calls[1..][j - 1];
        assert |history| + 2 * j == |next| + 2 * (j - 1);
      }
    }
  }

  /** Calls after the one that ends the run are never looked at. */
  lemma {:induction false} ExitIgnoresLaterCalls(handlers: Handlers, content: ModelContent, calls: seq<FunctionCall>,
                                                 history: seq<Entry>, last: Option<string>, k: nat)
    requires k < |calls| && EndsRun(handlers, calls[k])
    ensures ProcessCalls(handlers, content, calls, history, last)
         == ProcessCalls(handlers, content, calls[..k + 1], history, last)
    decreases k
  {
    if k > 0 {
      var c := calls[0];
      assert calls[..k + 1][0] == c;
      assert calls[..k + 1][1..] == calls[1..][..k];
      if !EndsRun(handlers, c) {
        var next := history + [ModelEntry(content), ToolEntry(c.name, ToolReply(handlers, c, last))];
        ExitIgnoresLaterCalls(handlers, content, calls[1..], next, LastAfter(handlers, c, last), k - 1);
      }
    }
  }

  /** A call to a name that is not one of the five tools is answered from the
      stale `result` variable: with `v` again when an earlier call of the run,
      in this reply or an earlier one, returned `v`, and with the
      `UnboundLocalError` text when none has. It leaves `result` as it was. */
  lemma UnknownCallRepeatsLastResult(handlers: Handlers, content: ModelContent, calls: seq<FunctionCall>,
                                     history: seq<Entry>, last: Option<string>)
    requires |calls| > 0 && calls[0].name !in KnownTools
    ensures var c := calls[0];
            var response := match last
              case Some(v) => ResultPayload(v)
              case None => ErrorPayload("Error executing " + c.name + ": " + UnboundResultMessage);
            ProcessCalls(handlers, content, calls, history, last)
            == ProcessCalls(handlers, content, calls[1..], history + [ModelEntry(content), ToolEntry(c.name, response)], last)
  {
  }

  /** An example: a known tool returns `v`, then an unknown name in the same
      reply is answered with `v` as well. */
  lemma KnownThenUnknownRepeats(handlers: Handlers, content: ModelContent, known: FunctionCall,
                                unknown: FunctionCall, history: seq<Entry>, v: string)
    requires known.name in KnownTools && known.name != FinalQueryTool && handlers(known) == Returned(v)
    requires unknown.name !in KnownTools
    ensures ProcessCalls(handlers, content, [known, unknown], history, None)
         == Continue(history + [ModelEntry(content), ToolEntry(known.name, ResultPayload(v)),
                                ModelEntry(content), ToolEntry(unknown.name, ResultPayload(v))], Some(v))
  {
    var h1 := history + [ModelEntry(content), ToolEntry(known.name, ResultPayload(v))];
    var h2 := h1 + [ModelEntry(content), ToolEntry(unknown.name, ResultPayload(v))];
    assert [known, unknown][1..] == [unknown];
    assert [unknown][1..] == [];
    assert CallResponse(known.name, handlers(known)) == ResultPayload(v);
    assert ProcessCalls(handlers, content, [known, unknown], history, None)
        == ProcessCalls(handlers, content, [unknown], h1, Some(v));
    UnknownCallRepeatsLastResult(handlers, content, [unknown], h1, Some(v));
    assert h2 == history + [ModelEntry(content), ToolEntry(known.name, ResultPayload(v)),
                            ModelEntry(content), ToolEntry(unknown.name, ResultPayload(v))];
  }

  // ---------------------------------------------------------------------------
  // The agent loop
  // ---------------------------------------------------------------------------

  datatype Ending = FinalQuery(output: string) | ComputeExhausted(message: string) | ProviderRaised(message: string)

  /** A finished run: the history, the last value of `compute_iterations`, the
      number of model calls made, and how the run ended. */
  datatype Run = Run(history: seq<Entry>, iterations: int, providerCalls: nat, ending: Ending)

  function BudgetMessage(iterations: int, compute: int): string {
    "Maximum compute loops reached: " + IntToString(iterations) + "/" + IntToString(compute)
  }

  /** The `while True` loop from `compute_iterations == iterations`, after
      `calls` model calls. The counter is raised before the budget test, so
      the model is called only while `iterations + 1 < compute`. */
  function AgentLoop(provider: Provider, handlers: Handlers, compute: int, history: seq<Entry>,
                     iterations: int, last: Option<string>, calls: nat): (r: Run)
    ensures |history| <= |r.history| && r.history[..|history|] == history
    ensures r.iterations > iterations
    ensures r.ending.ComputeExhausted? <==> r.iterations >= compute
    ensures r.ending.ComputeExhausted? ==>
              r.iterations == (if compute > iterations + 1 then compute else iterations + 1)
    ensures r.providerCalls == calls + (r.iterations - iterations) - (if r.ending.ComputeExhausted? then 1 else 0)
    decreases compute - iterations
  {
    var it := iterations + 1;
    if it >= compute then Run(history, it, calls, ComputeExhausted(BudgetMessage(it, compute)))
    else
      match provider(history)
      case Failed(message) => Run(history, it, calls + 1, ProviderRaised(message))
      case Generated(response) =>
        if |response.functionCalls| > 0 then
          match ProcessCalls(handlers, response.content, response.functionCalls, history, last)
          case Exit(output, h) =>
            ProcessCallsAppendsPairs(handlers, response.content, response.functionCalls, history, last);
            Run(h, it, calls + 1, FinalQuery(output))
          case Continue(h, l) =>
            ProcessCallsAppendsPairs(handlers, response.content, response.functionCalls, history, last);
            var r := AgentLoop(provider, handlers, compute, h, it, l, calls + 1);
            assert r.history[..|h|][..|history|] == h[..|history|];
            r
        else
          var h := history + [ModelEntry(response.content)];
          var r := AgentLoop(provider, handlers, compute, h, it, last, calls + 1);
          assert r.history[..|h|][..|history|] == h[..|history|];
          r
  }

  /** `main` after argument parsing: at most `compute - 1` model calls, none
      at all when `compute <= 1`; a too-small budget raises with the history
      untouched. */
  function RunAgent(provider: Provider, handlers: Handlers, compute: int, template: string, request: string): (r: Run)
    ensures |r.history| >= 1 && r.history[0] == UserEntry(Replace(template, Placeholder, request))
    ensures r.providerCalls <= (if compute > 1 then compute - 1 else 0)
    ensures compute <= 1 ==> r.providerCalls == 0 && r.history == InitialHistory(template, request)
                             && r.ending == ComputeExhausted(BudgetMessage(1, compute))
  {
    AgentLoop(provider, handlers, compute, InitialHistory(template, request), 0, None, 0)
  }

  /** A reply without function calls appends exactly its model content and
      the loop goes on with the next iteration, `result` unchanged. */
  lemma TextReplyContinues(provider: Provider, handlers: Handlers, compute: int, history: seq<Entry>,
                           iterations: int, last: Option<string>, calls: nat, content: ModelContent)
    requires iterations + 1 < compute
    requires provider(history) == Generated(GeminiResponse([], content))
    ensures AgentLoop(provider, handlers, compute, history, iterations, last, calls)
         == AgentLoop(provider, handlers, compute, history + [ModelEntry(content)], iterations + 1, last, calls + 1)
  {
  }

  /** A reply with function calls is processed with its own content and call
      list, against the history it was generated for and the carried
      `result`: a successful final query ends the run with its output, and
      otherwise the loop goes on from what the calls appended. */
  lemma CallsReplyProcessed(provider: Provider, handlers: Handlers, compute: int, history: seq<Entry>,
                            iterations: int, last: Option<string>, calls: nat, response: GeminiResponse)
    requires iterations + 1 < compute
    requires provider(history) == Generated(response) && |response.functionCalls| > 0
    ensures var step := ProcessCalls(handlers, response.content, response.functionCalls, history, last);
            AgentLoop(provider, handlers, compute, history, iterations, last, calls)
            == match step
               case Exit(output, h) => Run(h, iterations + 1, calls + 1, FinalQuery(output))
               case Continue(h, l) => AgentLoop(provider, handlers, compute, h, iterations + 1, l, calls + 1)
  {
  }

  /** The entries the loop appends: model content and `tool` entries only,
      each `tool` entry right after a model entry. */
  predicate LoopEntries(t: seq<Entry>) {
    && (forall k :: 0 <= k < |t| ==> !t[k].UserEntry?)
    && (forall k :: 0 <= k < |t| && t[k].ToolEntry? ==> k > 0 && t[k - 1].ModelEntry?)
  }

  /** What one reply's calls append is in that shape. */
  lemma {:induction false} PairsAreLoopEntries(h: seq<Entry>, from: nat, n: nat, content: ModelContent, handlers: Handlers,
                            calls: seq<FunctionCall>)
    requires n <= |calls| && |h| == from + 2 * n
    requires forall j :: 0 <= j < n ==> PairAt(h, from + 2 * j, content, handlers, calls[j])
    ensures LoopEntries(h[from..])
  {
    var t := h[from..];
    forall k | 0 <= k < |t|
      ensures !t[k].UserEntry?
    {
      PairEntryAt(h, from, n, content, handlers, calls, k);
    }
    forall k | 0 <= k < |t| && t[k].ToolEntry?
      ensures k > 0 && t[k - 1].ModelEntry?
    {
      PairEntryAt(h, from, n, content, handlers, calls, k);
    }
  }

  lemma {:induction false} PairEntryAt(h: seq<Entry>, from: nat, n: nat, content: ModelContent, handlers: Handlers,
                    calls: seq<FunctionCall>, k: nat)
    requires n <= |calls| && |h| == from + 2 * n && k < 2 * n
    requires forall j :: 0 <= j < n ==> PairAt(h, from + 2 * j, content, handlers, calls[j])
    ensures !h[from..][k].UserEntry?
    ensures h[from..][k].ToolEntry? ==> k > 0 && h[from..][k - 1].ModelEntry?
  {
    var j := k / 2;
    assert PairAt(h, from + 2 * j, content, handlers, calls[j]);
    if k == 2 * j {
      assert h[from..][k] == h[from + 2 * j];
    } else {
      assert h[from..][k] == h[from + 2 * j + 1];
      assert h[from..][k - 1] == h[from + 2 * j];
    }
  }

  lemma {:induction false} LoopEntriesConcat(a: seq<Entry>, b: seq<Entry>)
    requires LoopEntries(a) && LoopEntries(b)
    requires |b| > 0 ==> !b[0].ToolEntry?
    ensures LoopEntries(a + b)
  {
    var t := a + b;
    forall k | 0 <= k < |t| && t[k].ToolEntry?
      ensures k > 0 && t[k - 1].ModelEntry?
    {
      if k >= |a| {
        assert t[k] == b[k - |a|];
        assert t[k - 1] == b[k - |a| - 1];
      }
    }
  }

  /** Every run's history is the initial entry followed by loop entries; a
      model exception appends nothing, so the history is what the failing call
      was sent. */
  lemma {:induction false} LoopShape(provider: Provider, handlers: Handlers, compute: int, history: seq<Entry>,
                                     iterations: int, last: Option<string>, calls: nat)
    ensures var r := AgentLoop(provider, handlers, compute, history, iterations, last, calls);
            && LoopEntries(r.history[|history|..])
            && (r.ending.ProviderRaised? ==> provider(r.history) == Failed(r.ending.message))
    decreases compute - iterations
  {
    var r := AgentLoop(provider, handlers, compute, history, iterations, last, calls);
    var it := iterations + 1;
    if it < compute && provider(history).Generated? {
      var response := provider(history).response;
      var content := response.content;
      var fcalls := response.functionCalls;
      if |fcalls| > 0 {
        var s := ProcessCalls(handlers, content, fcalls, history, last);
        CallsAppendLoopEntries(handlers, content, fcalls, history, last);
        if s.Continue? {
          var h := s.history;
          LoopShape(provider, handlers, compute, h, it, s.lastResult, calls + 1);
          assert r == AgentLoop(provider, handlers, compute, h, it, s.lastResult, calls + 1);
          assert r.history[|history|..|h|] == h[|history|..];
          LoopEntriesAfter(r.history, |history|, |h|);
        }
      } else {
        var h := history + [ModelEntry(content)];
        LoopShape(provider, handlers, compute, h, it, last, calls + 1);
        assert LoopEntries(r.history[|history|..|h|]);
        LoopEntriesAfter(r.history, |history|, |h|);
      }
    }
  }

  /** What one reply's calls append is in loop-entry shape. */
  lemma CallsAppendLoopEntries(handlers: Handlers, content: ModelContent, calls: seq<FunctionCall>,
                               history: seq<Entry>, last: Option<string>)
    ensures var s := ProcessCalls(handlers, content, calls, history, last);
            |history| <= |s.history| && s.history[..|history|] == history
            && LoopEntries(s.history[|history|..])
  {
    var s := ProcessCalls(handlers, content, calls, history, last);
    ProcessCallsAppendsPairs(handlers, content, calls, history, last);
    PairsAreLoopEntries(s.history, |history|, FirstExit(handlers, calls), content, handlers, calls);
  }

  /** Gluing two stretches of loop entries. */
  lemma {:induction false} LoopEntriesAfter(h: seq<Entry>, i: nat, j: nat)
    requires i <= j <= |h|
    requires LoopEntries(h[i..j]) && LoopEntries(h[j..])
    ensures LoopEntries(h[i..])
  {
    assert h[i..] == h[i..j] + h[j..];
    if j < |h| {
      assert h[j..][0] == h[j];
    }
    LoopEntriesConcat(h[i..j], h[j..]);
  }

  /** A model that never ends the run exhausts the budget, and the run raises
      `Maximum compute loops reached`. */
  lemma {:induction false} NeverFinalExhaustsBudget(provider: Provider, handlers: Handlers, compute: int,
                                                    history: seq<Entry>, iterations: int, last: Option<string>, calls: nat)
    requires forall h :: provider(h).Generated?
    requires forall h, k :: 0 <= k < |provider(h).response.functionCalls|
                            ==> !EndsRun(handlers, provider(h).response.functionCalls[k])
    ensures AgentLoop(provider, handlers, compute, history, iterations, last, calls).ending.ComputeExhausted?
    decreases compute - iterations
  {
    var it := iterations + 1;
    if it < compute {
      var response := provider(history).response;
      var fcalls := response.functionCalls;
      if |fcalls| > 0 {
        var s := ProcessCalls(handlers, response.content, fcalls, history, last);
        ProcessCallsAppendsPairs(handlers, response.content, fcalls, history, last);
        NeverFinalExhaustsBudget(provider, handlers, compute, s.history, it, s.lastResult, calls + 1);
      } else {
        NeverFinalExhaustsBudget(provider, handlers, compute, history + [ModelEntry(response.content)], it, last, calls + 1);
      }
    }
  }
}

=== FILE: json.dfy ===
/**
 Decoded JSON values as the agents see them once `json.loads` (or an SDK) has
 produced Python objects, and Python's truth test on them. Numbers are
 integers only: floating point is not part of this model.
 */
module Json {

  datatype Value =
    | JNull
    | JBool(b: bool)
    | JNumber(n: int)
    | JString(s: string)
    | JArray(items: seq<Value>)
    | JObject(fields: map<string, Value>)

  /** Python's `bool(v)`: `None`, `False`, `0`, `""`, `[]` and `{}` are false. */
  predicate Truthy(v: Value) {
    match v
    case JNull => false
    case JBool(b) => b
    case JNumber(n) => n != 0
    case JString(s) => |s| > 0
    case JArray(items) => |items| > 0
    case JObject(fields) => |fields| > 0
  }

  /** Python's `d.get(key)`: the value under `key`, or `None` when it is absent. */
  function Get(d: map<string, Value>, key: string): Value {
    if key in d then d[key] else JNull
  }
}

=== FILE: omni.dfy ===
/**
 The omni agent: one command per run, routed to a single agent response
 that is logged once in the transaction log. The session state (the
 capability registry and the log) is explicit; `qwen3` behind Ollama is an
 oracle from the prompt sent to the HTTP outcome, and `json.loads` is an
 oracle from the configuration text to a value or a decode error.
 */
module Omni {
  import opened Wrappers
  import opened Text
  import opened Json

  // ---------------------------------------------------------------------------
  // get_qwen3_response: every failure is an "Error:" string
  // ---------------------------------------------------------------------------

  /** The prompts omni sends, by what goes into them; the fixed wording around
      those inputs is not modelled. */
  datatype Prompt =
    | PlanCapability(name: string, description: string)
    | PlanMcpTool(name: string, config: Value, description: string)
    | HelpRequest(text: string)

  /** The decoded body of a 200 reply: a JSON object whose `response` field
      may be missing, or a body that is not JSON. */
  datatype Body = ObjectBody(response: Option<string>) | MalformedBody

  datatype QwenReply =
    | HttpResponse(status: int, body: Body)
    | ConnectionFailed
    | TimedOut
    | RequestFailed(message: string)

  /** The model behind Ollama for one run of the program: the reply to the
      run's `n`-th request (counting from 0) when it sends `prompt`. Every
      command makes at most one request, except help, which makes two: one for
      the log and one in `display_help` for the screen. */
  type Model = (Prompt, nat) -> QwenReply

  const ConnectError := ErrorText(" Could not connect to Ollama. Ensure Ollama is running.")
  const ResponseFormatError := ErrorText(" Unexpected response format from Ollama.")
  const TimeoutError := ErrorText(" Ollama request timed out.")

  function StatusError(status: int): (r: string)
    ensures StartsWith(r, "Error:")
  {
    ErrorText(" Ollama request failed with status code " + IntToString(status) + ".")
  }

  function UnexpectedError(message: string): (r: string)
    ensures StartsWith(r, "Error:")
  {
    ErrorText(" An unexpected error occurred with Ollama request: " + message)
  }

  /** The reply carries generated text. */
  predicate Answered(reply: QwenReply) {
    reply.HttpResponse? && reply.status == 200 && reply.body.ObjectBody? && reply.body.response.Some?
  }

  /** `get_qwen3_response`: the generated text, or an error string. */
  function Qwen3Response(reply: QwenReply): (text: string)
    ensures Answered(reply) ==> text == reply.body.response.value
    ensures !Answered(reply) ==> StartsWith(text, "Error:")
  {
    match reply
    case HttpResponse(status, body) =>
      if status == 200 then
        match body
        case ObjectBody(response) => response.GetOr(ResponseFormatError)
        case MalformedBody => ResponseFormatError
      else StatusError(status)
    case ConnectionFailed => ConnectError
    case TimedOut => TimeoutError
    case RequestFailed(message) => UnexpectedError(message)
  }

  /** The run's first request: the prompt goes out, the text or error string comes back. */
  function Ask(model: Model, prompt: Prompt): string {
    Qwen3Response(model(prompt, 0))
  }

  /** Callers test the `Error:` prefix, so they see a failure exactly when the
      request failed or the model itself wrote text starting with `Error:`. */
  lemma SeesFailureIff(reply: QwenReply)
    ensures StartsWith(Qwen3Response(reply), "Error:")
            <==> !Answered(reply) || StartsWith(reply.body.response.value, "Error:")
  {
  }

  // ---------------------------------------------------------------------------
  // The capability registry
  // ---------------------------------------------------------------------------

  datatype Kind = GeneralCapability | McpTool

  /** An `ADDED_CAPABILITIES` entry; `config` is set for MCP tools only. */
  datatype Capability = Capability(name: string, kind: Kind, description: string, plan: string, config: Option<Value>)

  predicate HasName(caps: seq<Capability>, name: string) {
    exists i :: 0 <= i < |caps| && caps[i].name == name
  }

  predicate UniqueNames(caps: seq<Capability>) {
    forall i, j :: 0 <= i < j < |caps| ==> caps[i].name != caps[j].name
  }

  /** The registry grows by at most one entry at the end, earlier entries untouched. */
  predicate Extends(caps: seq<Capability>, r: seq<Capability>) {
    |caps| <= |r| <= |caps| + 1 && r[..|caps|] == caps
  }

  /** The `if not any(cap['name'] == name ...)` append: an entry whose name is
      taken is dropped, so names stay unique. */
  function Register(caps: seq<Capability>, c: Capability): (r: seq<Capability>)
    ensures Extends(caps, r)
    ensures HasName(r, c.name)
    ensures |r| == |caps| + 1 <==> !HasName(caps, c.name)
    ensures |r| == |caps| + 1 ==> r[|caps|] == c
    ensures UniqueNames(caps) ==> UniqueNames(r)
  {
    if HasName(caps, c.name) then caps
    else
      var r := caps + [c];
      assert r[|caps|].name == c.name;
      r
  }

  /** What a command handler gives back: the registry after it and the agent response. */
  datatype Handled = Handled(capabilities: seq<Capability>, response: string)

  /** `handle_add_capability`: ask for a plan; an `Error:` plan leaves the
      registry alone and reports the failure, any other plan registers a
      general capability under the name (unless the name is taken). */
  function HandleAddCapability(caps: seq<Capability>, model: Model, name: string, description: string): (h: Handled)
    ensures Extends(caps, h.capabilities)
    ensures UniqueNames(caps) ==> UniqueNames(h.capabilities)
    ensures var plan := Ask(model, PlanCapability(name, description));
            && (StartsWith(plan, "Error:") ==>
                  h.capabilities == caps
                  && h.response == "Failed to get plan for capability '" + name + "'. Error: " + plan)
            && (!StartsWith(plan, "Error:") ==>
                  && HasName(h.capabilities, name)
                  && (|h.capabilities| > |caps| ==>
                        h.capabilities[|caps|] == Capability(name, GeneralCapability, description, plan, None))
                  && h.response == "Placeholder for add capability '" + name + "': qwen3 generated the following plan: " + plan)
    ensures h.response != ""
  {
    var plan := Ask(model, PlanCapability(name, description));
    if StartsWith(plan, "Error:") then
      Handled(caps, "Failed to get plan for capability '" + name + "'. Error: " + plan)
    else
      Handled(Register(caps, Capability(name, GeneralCapability, description, plan, None)),
              "Placeholder for add capability '" + name + "': qwen3 generated the following plan: " + plan)
  }

  /** `json.loads` on the configuration text. */
  datatype Decoded = Parsed(value: Value) | DecodeError(message: string)

  type Decoder = string -> Decoded

  /** `handle_add_mcp_tool`: the configuration is decoded first; a decode
      error is reported without asking the model; otherwise as for `add`,
      with the decoded configuration kept in the entry. */
  function HandleAddMcpTool(caps: seq<Capability>, model: Model, decode: Decoder,
                            name: string, configJson: string, description: string): (h: Handled)
    ensures Extends(caps, h.capabilities)
    ensures UniqueNames(caps) ==> UniqueNames(h.capabilities)
    ensures decode(configJson).DecodeError? ==>
              h == Handled(caps, "Failed to add MCP tool '" + name + "': Invalid JSON in configuration. Error: "
                                 + decode(configJson).message)
    ensures decode(configJson).Parsed? ==>
              var plan := Ask(model, PlanMcpTool(name, decode(configJson).value, description));
              && (StartsWith(plan, "Error:") ==>
                    h.capabilities == caps
                    && h.response == "Failed to get plan for MCP tool '" + name + "'. Error: " + plan)
              && (!StartsWith(plan, "Error:") ==>
                    && HasName(h.capabilities, name)
                    && (|h.capabilities| > |caps| ==>
                          h.capabilities[|caps|]
                          == Capability(name, McpTool, description, plan, Some(decode(configJson).value)))
                    && h.response == "Placeholder for MCP tool '" + name + "': qwen3 generated the following plan/code: " + plan)
    ensures h.response != ""
  {
    match decode(configJson)
    case DecodeError(message) =>
      Handled(caps, "Failed to add MCP tool '" + name + "': Invalid JSON in configuration. Error: " + message)
    case Parsed(config) =>
      var plan := Ask(model, PlanMcpTool(name, config, description));
      if StartsWith(plan, "Error:") then
        Handled(caps, "Failed to get plan for MCP tool '" + name + "'. Error: " + plan)
      else
        Handled(Register(caps, Capability(name, McpTool, description, plan, Some(config))),
                "Placeholder for MCP tool '" + name + "': qwen3 generated the following plan/code: " + plan)
  }

  /** Invalid configuration JSON never reaches the model: the outcome is the
      same whatever the model would have answered. */
  lemma InvalidConfigSkipsModel(caps: seq<Capability>, m1: Model, m2: Model, decode: Decoder,
                                name: string, configJson: string, description: string)
    requires decode(configJson).DecodeError?
    ensures HandleAddMcpTool(caps, m1, decode, name, configJson, description)
         == HandleAddMcpTool(caps, m2, decode, name, configJson, description)
  {
  }

  // ---------------------------------------------------------------------------
  // The help prompt
  // ---------------------------------------------------------------------------

  const CapabilitiesIntro :=
    "\n\n" + "Additionally, the following capabilities have been planned for this session (these are placeholders awaiting full implementation and are session-specific):\n"

  const NoCapabilitiesHint :=
    "You can add " + "new capabilities for this session using the 'omni add <name> \"<description>\"' command for general Python features, or 'omni add_mcp_tool <name> <json_config> \"<description>\"' to define integrations with external MCP tools."

  const McpToolExplanation :=
    "(Type: MCP Tool Integration Definition - a plan for interacting with an external MCP-compliant tool)"

  const GeneralExplanation :=
    "(Type: General Capability Plan - a plan for a new Python-based feature)"

  function TypeExplanation(kind: Kind): string {
    if kind == McpTool then McpToolExplanation else GeneralExplanation
  }

  /** One `- name (type): description` line of the listing. */
  function ListingLine(c: Capability): string {
    "- " + c.name + " " + TypeExplanation(c.kind) + ": " + c.description + "\n"
  }

  /** The lines of the listing, one per entry, in registry order. */
  function Lines(caps: seq<Capability>): (lines: seq<string>)
    ensures |lines| == |caps|
    ensures forall i :: 0 <= i < |caps| ==> lines[i] == ListingLine(caps[i])
  {
    seq(|caps|, i requires 0 <= i < |caps| => ListingLine(caps[i]))
  }

  /** Strings appended one after the other, as `+=` in a loop does. */
  function Concat(parts: seq<string>): string
    decreases |parts|
  {
    if |parts| == 0 then "" else Concat(parts[..|parts| - 1]) + parts[|parts| - 1]
  }

  lemma {:induction false} ConcatAppend(a: seq<string>, b: seq<string>)
    ensures Concat(a + b) == Concat(a) + Concat(b)
    decreases |b|
  {
    if |b| == 0 {
      assert a + b == a;
    } else {
      var b' := b[..|b| - 1];
      assert (a + b)[..|a + b| - 1] == a + b';
      ConcatAppend(a, b');
    }
  }

  /** The listing the `for cap in ADDED_CAPABILITIES` loop accumulates. */
  function Listing(caps: seq<Capability>): string {
    Concat(Lines(caps))
  }

  /** Every entry has its own line in the listing, in registry order. */
  lemma {:induction false} ListingHasLine(caps: seq<Capability>, k: nat)
    requires k < |caps|
    ensures Listing(caps) == Listing(caps[..k]) + ListingLine(caps[k]) + Listing(caps[k + 1..])
  {
    var lines := Lines(caps);
    ConcatSplit(lines, k);
    LinesPrefix(caps, k);
    LinesSuffix(caps, k + 1);
  }

  /** One part of a concatenation, with what comes before and after it. */
  lemma {:induction false} ConcatSplit(parts: seq<string>, k: nat)
    requires k < |parts|
    ensures Concat(parts) == Concat(parts[..k]) + parts[k] + Concat(parts[k + 1..])
  {
    var pre, mid, post := parts[..k], [parts[k]], parts[k + 1..];
    assert parts == pre + mid + post;
    ConcatAppend(pre + mid, post);
    ConcatAppend(pre, mid);
    assert Concat(mid) == parts[k] by {
      assert mid[..0] == [];
    }
  }

  lemma LinesPrefix(caps: seq<Capability>, k: nat)
    requires k <= |caps|
    ensures Lines(caps)[..k] == Lines(caps[..k])
  {
  }

  lemma LinesSuffix(caps: seq<Capability>, k: nat)
    requires k <= |caps|
    ensures Lines(caps)[k..] == Lines(caps[k..])
  {
  }

  /** The help prompt `display_help` builds, and `main` rebuilds word for word
      for the log: the fixed paragraph `base`, then the listing of the
      session's capabilities or, with none, the hint on how to add some. */
  function HelpPrompt(base: string, caps: seq<Capability>): (p: string)
    ensures StartsWith(p, base)
    ensures |caps| == 0 <==> p == base + NoCapabilitiesSection
    ensures forall k :: 0 <= k < |caps| ==> Contains(p, ListingLine(caps[k]))
  {
    if |caps| > 0 then
      ListingPrompt(base, ListingHeader, caps);
      BranchesDiffer(base, ListingHeader, Listing(caps), NoCapabilitiesHint);
      base + ListingHeader + Listing(caps)
    else
      StartsWithAppend(base, NoCapabilitiesSection);
      base + NoCapabilitiesSection
  }

  /** What follows the base paragraph when capabilities are listed, before the lines. */
  const ListingHeader := "\n" + CapabilitiesIntro

  /** What follows the base paragraph when there is nothing to list. */
  const NoCapabilitiesSection := "\n\n" + NoCapabilitiesHint

  /** `part` occurs somewhere in `text`. */
  ghost predicate Contains(text: string, part: string) {
    exists before, after :: text == before + part + after
  }

  /** A prompt made of `base`, a separator and the listing starts with `base`
      and holds every capability's line. */
  lemma ListingPrompt(base: string, sep: string, caps: seq<Capability>)
    ensures StartsWith(base + sep + Listing(caps), base)
    ensures forall k :: 0 <= k < |caps| ==> Contains(base + sep + Listing(caps), ListingLine(caps[k]))
  {
    assert base + sep + Listing(caps) == base + (sep + Listing(caps));
    StartsWithAppend(base, sep + Listing(caps));
    forall k | 0 <= k < |caps|
      ensures Contains(base + sep + Listing(caps), ListingLine(caps[k]))
    {
      ListedAt(base + sep, caps, k);
    }
  }

  lemma StartsWithAppend(a: string, b: string)
    ensures StartsWith(a + b, a)
  {
    assert (a + b)[..|a|] == a;
  }

  /** The two shapes of the help prompt never coincide: two characters after
      the base, one has the intro's second newline and the other the hint. */
  lemma BranchesDiffer(base: string, header: string, listing: string, hint: string)
    requires |header| >= 3 && header[2] == '\n' && |hint| >= 1 && hint[0] != '\n'
    ensures base + header + listing != base + ("\n\n" + hint)
  {
    var i := |base| + 2;
    assert (base + header + listing)[i] == header[2];
    assert (base + ("\n\n" + hint))[i] == hint[0];
  }

  /** Each capability's line appears in a prompt that ends with the listing. */
  lemma ListedAt(head: string, caps: seq<Capability>, k: nat)
    requires k < |caps|
    ensures Contains(head + Listing(caps), ListingLine(caps[k]))
  {
    ListingHasLine(caps, k);
    var before := head + Listing(caps[..k]);
    var after := Listing(caps[k + 1..]);
    AppendAssociates(head, Listing(caps[..k]), ListingLine(caps[k]), after);
    assert head + Listing(caps) == before + ListingLine(caps[k]) + after;
  }

  lemma AppendAssociates(w: string, x: string, y: string, z: string)
    ensures w + (x + y + z) == (w + x) + y + z
  {
  }

  /** What `display_help` prints: the answer to its own request for the help
      prompt, which is the second request of the run (`main` sent the first). */
  function DisplayHelp(base: string, caps: seq<Capability>, model: Model): (shown: string)
    ensures var reply := model(HelpRequest(HelpPrompt(base, caps)), 1);
            && (Answered(reply) ==> shown == reply.body.response.value)
            && (!Answered(reply) ==> StartsWith(shown, "Error:"))
  {
    Qwen3Response(model(HelpRequest(HelpPrompt(base, caps)), 1))
  }

  // ---------------------------------------------------------------------------
  // The transaction log
  // ---------------------------------------------------------------------------

  /** One `create_transaction_data` record; the ISO timestamp is opaque. */
  datatype Transaction = Transaction(timestamp: string, userInput: string, agentResponse: string)

  const NoTransactionsMessage := "No transactions to display for this session."
  const TransactionsShownMessage := "Displayed in-memory transaction log."

  /** `handle_show_transactions`. */
  function ShowTransactions(log: seq<Transaction>): (response: string)
    ensures response == NoTransactionsMessage <==> log == []
    ensures response == NoTransactionsMessage || response == TransactionsShownMessage
  {
    if log == [] then NoTransactionsMessage else TransactionsShownMessage
  }

  /** `log_transaction`: the log only ever grows at its end. */
  function LogTransaction(log: seq<Transaction>, t: Transaction): (r: seq<Transaction>)
    ensures |r| == |log| + 1 && r[..|log|] == log && r[|log|] == t
  {
    log + [t]
  }

  // ---------------------------------------------------------------------------
  // Routing in main
  // ---------------------------------------------------------------------------

  /** The sub-command `argparse` recognised, with its positional arguments. */
  datatype Command =
    | HelpCommand
    | AddCommand(name: string, description: string)
    | AddMcpToolCommand(name: string, configJson: string, description: string)
    | ShowTransactionsCommand
    | ShowDesignWorkflowCommand

  /** One run: `sys.argv` (script name first), the recognised command if any,
      and the arguments `parse_known_args` left over. */
  datatype Invocation = Invocation(argv: seq<string>, command: Option<Command>, unknown: seq<string>)

  datatype Session = Session(capabilities: seq<Capability>, transactions: seq<Transaction>)

  /** A run either logs one transaction or dies before logging. */
  datatype Outcome = Logged(session: Session) | Crashed(message: string)

  const HelpFailedPrefix :=
    "Attempted to display help via qwen3 (with session-only capabilities list and disclaimers), but encountered an error: "
  const HelpShownMessage :=
    "Displayed help message generated by qwen3 (with session-only capabilities list and disclaimers)."
  const MissingAddArguments := "Error: Missing arguments for 'add' command."
  const MissingMcpArguments := "Error: Missing arguments for 'add_mcp_tool' command."
  const UnknownCommandPrefix := "Reported unknown command: "
  const ResponseNotSet := "Error: Agent response not set for this interaction."

  /** `handle_show_design_workflow` is not defined, so that branch raises. */
  const MissingHandlerMessage := "name 'handle_show_design_workflow' is not defined"

  /** The run shows help: the `help` command, or no command and nothing left over. */
  predicate ShowsHelp(inv: Invocation) {
    inv.command == Some(HelpCommand) || (inv.command.None? && inv.unknown == [])
  }

  /** The logged response for help: whether `main`'s own request for the help
      prompt, the run's first, came back as an error. */
  function HelpResponse(base: string, caps: seq<Capability>, model: Model): (response: string)
    ensures StartsWith(Ask(model, HelpRequest(HelpPrompt(base, caps))), "Error:") <==> response != HelpShownMessage
    ensures response != HelpShownMessage ==> response == HelpFailedPrefix + Ask(model, HelpRequest(HelpPrompt(base, caps)))
  {
    var outcome := Ask(model, HelpRequest(HelpPrompt(base, caps)));
    if StartsWith(outcome, "Error:") then
      var r := HelpFailedPrefix + outcome;
      assert |r| > |HelpShownMessage|;
      r
    else HelpShownMessage
  }

  /** The `if`/`elif` chain of `main`, before the log entry is written. The
      show-design-workflow command is excluded: that branch raises. */
  function Respond(s: Session, inv: Invocation, base: string, model: Model, decode: Decoder): (h: Handled)
    requires inv.command != Some(ShowDesignWorkflowCommand)
    ensures Extends(s.capabilities, h.capabilities)
    ensures UniqueNames(s.capabilities) ==> UniqueNames(h.capabilities)
    ensures h.response != ""
    ensures ShowsHelp(inv) ==> h == Handled(s.capabilities, HelpResponse(base, s.capabilities, model))
    ensures !ShowsHelp(inv) && inv.command.Some? ==> h == CommandResponse(s, inv.command.value, model, decode)
    ensures inv.command.None? && inv.unknown != [] ==>
              h == Handled(s.capabilities, UnknownCommandPrefix + inv.unknown[0])
  {
    if ShowsHelp(inv) then Handled(s.capabilities, HelpResponse(base, s.capabilities, model))
    else if inv.command.Some? then CommandResponse(s, inv.command.value, model, decode)
    else Handled(s.capabilities, UnknownCommandPrefix + inv.unknown[0])
  }

  /** The branches for `add`, `add_mcp_tool` and `show_transactions`: an
      empty argument is reported without calling the handler. */
  function CommandResponse(s: Session, command: Command, model: Model, decode: Decoder): (h: Handled)
    requires !command.HelpCommand? && !command.ShowDesignWorkflowCommand?
    ensures Extends(s.capabilities, h.capabilities)
    ensures UniqueNames(s.capabilities) ==> UniqueNames(h.capabilities)
    ensures h.response != ""
    ensures command.AddCommand? && (command.name == "" || command.description == "") ==>
              h == Handled(s.capabilities, MissingAddArguments)
    ensures command.AddMcpToolCommand? && (command.name == "" || command.configJson == "" || command.description == "") ==>
              h == Handled(s.capabilities, MissingMcpArguments)
    ensures command.AddCommand? && command.name != "" && command.description != "" ==>
              h == HandleAddCapability(s.capabilities, model, command.name, command.description)
    ensures command.AddMcpToolCommand? && command.name != "" && command.configJson != "" && command.description != "" ==>
              h == HandleAddMcpTool(s.capabilities, model, decode, command.name, command.configJson, command.description)
    ensures command.ShowTransactionsCommand? ==> h == Handled(s.capabilities, ShowTransactions(s.transactions))
  {
    match command
    case AddCommand(name, description) =>
      if name != "" && description != "" then HandleAddCapability(s.capabilities, model, name, description)
      else Handled(s.capabilities, MissingAddArguments)
    case AddMcpToolCommand(name, configJson, description) =>
      if name != "" && configJson != "" && description != "" then
        HandleAddMcpTool(s.capabilities, model, decode, name, configJson, description)
      else Handled(s.capabilities, MissingMcpArguments)
    case _ => Handled(s.capabilities, ShowTransactions(s.transactions))
  }

  /** `main`: route the command, fall back to a default response if none was
      set, and append exactly one transaction for the full command line. */
  function Main(s: Session, inv: Invocation, base: string, model: Model, decode: Decoder, timestamp: string): (o: Outcome)
    ensures o.Crashed? <==> inv.command == Some(ShowDesignWorkflowCommand)
    ensures o.Logged? ==>
              && Extends(s.capabilities, o.session.capabilities)
              && (UniqueNames(s.capabilities) ==> UniqueNames(o.session.capabilities))
              && |o.session.transactions| == |s.transactions| + 1
              && o.session.transactions[..|s.transactions|] == s.transactions
              && var t := o.session.transactions[|s.transactions|];
                 t.timestamp == timestamp && t.userInput == Join(inv.argv, ' ') && t.agentResponse != ""
    ensures o.Logged? ==> o.session.capabilities == Respond(s, inv, base, model, decode).capabilities
  {
    if inv.command == Some(ShowDesignWorkflowCommand) then Crashed(MissingHandlerMessage)
    else
      var h := Respond(s, inv, base, model, decode);
      var response := if h.response == "" then ResponseNotSet else h.response;
      Logged(Session(h.capabilities, LogTransaction(s.transactions, Transaction(timestamp, Join(inv.argv, ' '), response))))
  }

  /** Every branch sets a response, so the default is never what gets logged,
      and the registry left behind is the one the command's branch built. */
  lemma LoggedResponseIsTheCommands(s: Session, inv: Invocation, base: string, model: Model, decode: Decoder, timestamp: string)
    requires inv.command != Some(ShowDesignWorkflowCommand)
    ensures var o := Main(s, inv, base, model, decode, timestamp);
            var h := Respond(s, inv, base, model, decode);
            o.session.transactions[|s.transactions|].agentResponse == h.response
            && o.session.capabilities == h.capabilities
  {
  }

  /** A run of `add` with a new name and a plan that is not an error leaves
      the registry with the new general capability appended, plan included. */
  lemma AddRunRegisters(s: Session, argv: seq<string>, unknown: seq<string>, name: string, description: string,
                        base: string, model: Model, decode: Decoder, timestamp: string)
    requires name != "" && description != "" && !HasName(s.capabilities, name)
    requires !StartsWith(Ask(model, PlanCapability(name, description)), "Error:")
    ensures var o := Main(s, Invocation(argv, Some(AddCommand(name, description)), unknown), base, model, decode, timestamp);
            o.Logged? &&
            o.session.capabilities
              == s.capabilities + [Capability(name, GeneralCapability, description, Ask(model, PlanCapability(name, description)), None)]
  {
    var c := Capability(name, GeneralCapability, description, Ask(model, PlanCapability(name, description)), None);
    var r := Register(s.capabilities, c);
    assert r == s.capabilities + [c] by {
      assert r[..|s.capabilities|] == s.capabilities && r[|s.capabilities|] == c;
      assert r == r[..|s.capabilities|] + [r[|s.capabilities|]];
    }
  }

  /** Help is the default. It never changes the registry, and what it logs
      depends on the run's first reply only: the reply `display_help` gets
      for its own request plays no part. */
  lemma HelpLogDependsOnFirstReply(s: Session, inv: Invocation, base: string, m1: Model, m2: Model, decode: Decoder)
    requires ShowsHelp(inv)
    requires m1(HelpRequest(HelpPrompt(base, s.capabilities)), 0) == m2(HelpRequest(HelpPrompt(base, s.capabilities)), 0)
    ensures Respond(s, inv, base, m1, decode).capabilities == s.capabilities
    ensures Respond(s, inv, base, m1, decode) == Respond(s, inv, base, m2, decode)
  {
  }

  /** The two help requests can disagree: the log can record that help was
      displayed while the user was shown a timeout error. */
  lemma HelpLogCanDisagreeWithScreen(s: Session, inv: Invocation, base: string, model: Model, decode: Decoder, text: string)
    requires ShowsHelp(inv)
    requires !StartsWith(text, "Error:")
    requires model(HelpRequest(HelpPrompt(base, s.capabilities)), 0) == HttpResponse(200, ObjectBody(Some(text)))
    requires model(HelpRequest(HelpPrompt(base, s.capabilities)), 1) == TimedOut
    ensures Respond(s, inv, base, model, decode).response == HelpShownMessage
    ensures DisplayHelp(base, s.capabilities, model) == TimeoutError
  {
  }

  /** No recognised command and something left over: the first leftover is
      reported as an unknown command. */
  lemma UnknownCommandReported(s: Session, inv: Invocation, base: string, model: Model, decode: Decoder)
    requires inv.command.None? && inv.unknown != []
    ensures Respond(s, inv, base, model, decode) == Handled(s.capabilities, UnknownCommandPrefix + inv.unknown[0])
  {
  }

  /** `show_transactions` reports an empty log exactly when the log is empty. */
  lemma ShowTransactionsReportsEmptyLog(s: Session, inv: Invocation, base: string, model: Model, decode: Decoder)
    requires inv.command == Some(ShowTransactionsCommand)
    ensures var h := Respond(s, inv, base, model, decode);
            h.capabilities == s.capabilities && (h.response == NoTransactionsMessage <==> s.transactions == [])
  {
  }

  /** Each run of the program starts from an empty session, so in practice
      `show_transactions` always reports an empty log and help never lists a
      capability. */
  lemma FreshProcessHasNothingToShow(inv: Invocation, base: string, model: Model, decode: Decoder, timestamp: string)
    requires inv.command == Some(ShowTransactionsCommand) || ShowsHelp(inv)
    ensures var o := Main(Session([], []), inv, base, model, decode, timestamp);
            && o.Logged?
            && o.session.capabilities == []
            && (inv.command == Some(ShowTransactionsCommand) ==>
                  o.session.transactions == [Transaction(timestamp, Join(inv.argv, ' '), NoTransactionsMessage)])
  {
  }

  /** A hypothetical composition: runs sharing one session, as if the globals
      survived between commands, which the program itself never does (each
      run is a fresh process). Each run has its own model replies. The log
      holds one entry per completed run and the names stay unique. */
  function RunAll(s: Session, runs: seq<Invocation>, base: string, models: seq<Model>, decode: Decoder,
                  timestamps: seq<string>): (r: Session)
    requires |models| == |runs| && |timestamps| == |runs|
    ensures Prefix(s.capabilities, r.capabilities)
    ensures UniqueNames(s.capabilities) ==> UniqueNames(r.capabilities)
    ensures |r.transactions| == |s.transactions| + Completed(runs)
    ensures r.transactions[..|s.transactions|] == s.transactions
    decreases |runs|
  {
    if |runs| == 0 then s
    else
      match Main(s, runs[0], base, models[0], decode, timestamps[0])
      case Crashed(_) => RunAll(s, runs[1..], base, models[1..], decode, timestamps[1..])
      case Logged(s') =>
        var r := RunAll(s', runs[1..], base, models[1..], decode, timestamps[1..]);
        assert r.transactions[..|s.transactions|] == r.transactions[..|s'.transactions|][..|s.transactions|];
        assert r.capabilities[..|s.capabilities|] == r.capabilities[..|s'.capabilities|][..|s.capabilities|];
        r
  }

  predicate Prefix(a: seq<Capability>, b: seq<Capability>) {
    |a| <= |b| && b[..|a|] == a
  }

  /** The number of runs that do not raise. */
  function Completed(runs: seq<Invocation>): nat
    decreases |runs|
  {
    if |runs| == 0 then 0
    else (if runs[0].command == Some(ShowDesignWorkflowCommand) then 0 else 1) + Completed(runs[1..])
  }
}

=== FILE: text.dfy ===
/**
 The few Python string operations the agents rely on, written out over
 `seq<char>`: `str.isspace`/`str.strip`, `str.split` and `str.join` on one
 separator character, `str.replace`, `str.startswith` and `str(int)`.
 */
module Text {

  /** Python's `str.isspace` for one character (the Unicode White_Space set
      Python uses, including the ASCII information separators 0x1C-0x1F). */
  predicate IsSpace(c: char) {
    || ('\t' <= c <= '\r')
    || ('\U{1C}' <= c <= ' ')
    || c == '\U{85}' || c == '\U{A0}' || c == '\U{1680}'
    || ('\U{2000}' <= c <= '\U{200A}')
    || c == '\U{2028}' || c == '\U{2029}' || c == '\U{202F}'
    || c == '\U{205F}' || c == '\U{3000}'
  }

  predicate AllSpace(s: string) {
    forall i :: 0 <= i < |s| ==> IsSpace(s[i])
  }

  predicate StartsWith(s: string, prefix: string) {
    |prefix| <= |s| && s[..|prefix|] == prefix
  }

  /** Error texts of the agents: the `Error:` prefix callers test for, then the detail. */
  function ErrorText(detail: string): (r: string)
    ensures StartsWith(r, "Error:")
  {
    assert ("Error:" + detail)[..6] == "Error:";
    "Error:" + detail
  }

  /** Leading whitespace removed: the longest suffix that does not start with a space. */
  function TrimStart(s: string): (r: string)
    ensures |r| <= |s| && r == s[|s| - |r|..]
    ensures forall i :: 0 <= i < |s| - |r| ==> IsSpace(s[i])
    ensures r == [] || !IsSpace(r[0])
    decreases |s|
  {
    if |s| > 0 && IsSpace(s[0]) then TrimStart(s[1..]) else s
  }

  /** Trailing whitespace removed: the longest prefix that does not end with a space. */
  function TrimEnd(s: string): (r: string)
    ensures |r| <= |s| && r == s[..|r|]
    ensures forall i :: |r| <= i < |s| ==> IsSpace(s[i])
    ensures r == [] || !IsSpace(r[|r| - 1])
    decreases |s|
  {
    if |s| > 0 && IsSpace(s[|s| - 1]) then TrimEnd(s[..|s| - 1]) else s
  }

  /** Python's `s.strip()`: the result is a slice of `s` that neither starts
      nor ends with whitespace, and it is empty exactly when `s` is blank. */
  function Strip(s: string): (r: string)
    ensures |r| <= |s|
    ensures exists a, b :: 0 <= a <= b <= |s| && r == s[a..b] && SpaceOutside(s, a, b)
    ensures r == [] || (!IsSpace(r[0]) && !IsSpace(r[|r| - 1]))
    ensures r == [] <==> AllSpace(s)
  {
    var front := TrimStart(s);
    var r := TrimEnd(front);
    var a := |s| - |front|;
    TrimmedIsSlice(s, front, r, a, a + |r|);
    assert front != [] ==> !IsSpace(s[a]) by {
      if front != [] {
        assert front[0] == s[a];
      }
    }
    r
  }

  /** Every character of `s` before `a` or from `b` on is whitespace. */
  predicate SpaceOutside(s: string, a: int, b: int) {
    forall i :: 0 <= i < |s| && (i < a || b <= i) ==> IsSpace(s[i])
  }

  /** Whitespace cut from the front of `s` and then from the back of what is
      left: the text that remains is the slice of `s` between the two cuts. */
  lemma {:induction false} TrimmedIsSlice(s: string, front: string, r: string, a: nat, b: nat)
    requires a + |front| == |s| && b == a + |r| && |r| <= |front|
    requires front == s[a..] && r == front[..|r|]
    requires forall i :: 0 <= i < a ==> IsSpace(s[i])
    requires forall i :: |r| <= i < |front| ==> IsSpace(front[i])
    ensures r == s[a..b] && SpaceOutside(s, a, b)
  {
    assert r == s[a..b] by {
      assert s[a..][..|r|] == s[a..b];
    }
    forall i | 0 <= i < |s| && b <= i
      ensures IsSpace(s[i])
    {
      assert s[i] == front[i - a];
    }
  }

  /** Python's `s.split(sep)` for a one-character separator: never empty,
      no piece holds the separator, and joining the pieces gives `s` back. */
  function Split(s: string, sep: char): (parts: seq<string>)
    ensures |parts| >= 1
    ensures forall k :: 0 <= k < |parts| ==> sep !in parts[k]
    ensures Join(parts, sep) == s
    decreases |s|
  {
    if |s| == 0 then [""]
    else
      var rest := Split(s[1..], sep);
      if s[0] == sep then
        assert Join([""] + rest, sep) == [sep] + Join(rest, sep);
        assert s == [sep] + s[1..];
        [""] + rest
      else
        var parts := [[s[0]] + rest[0]] + rest[1..];
        assert Join(parts, sep) == [s[0]] + Join(rest, sep) by {
          if |rest| > 1 {
            assert parts[1..] == rest[1..];
          }
        }
        assert s == [s[0]] + s[1..];
        parts
  }

  /** Python's `sep.join(parts)` for a one-character separator. */
  function Join(parts: seq<string>, sep: char): string
    decreases |parts|
  {
    if |parts| == 0 then ""
    else if |parts| == 1 then parts[0]
    else parts[0] + [sep] + Join(parts[1..], sep)
  }

  /** A piece free of the separator, followed by the separator, splits off as one part. */
  lemma {:induction false} SplitAfterSeparator(a: string, sep: char, t: string)
    requires sep !in a
    ensures Split(a + [sep] + t, sep) == [a] + Split(t, sep)
    decreases |a|
  {
    var s := a + [sep] + t;
    if |a| == 0 {
      assert s[0] == sep && s[1..] == t;
    } else {
      assert s[0] == a[0] && s[1..] == a[1..] + [sep] + t;
      SplitAfterSeparator(a[1..], sep, t);
      assert [a[0]] + a[1..] == a;
    }
  }

  /** A string without the separator is its own single part. */
  lemma {:induction false} SplitWithoutSeparator(a: string, sep: char)
    requires sep !in a
    ensures Split(a, sep) == [a]
    decreases |a|
  {
    if |a| > 0 {
      assert a[0] in a;
      SplitWithoutSeparator(a[1..], sep);
      assert [a[0]] + a[1..] == a;
    }
  }

  /** The other half of the round trip: splitting a join of separator-free
      pieces gives the pieces back. */
  lemma {:induction false} SplitJoin(parts: seq<string>, sep: char)
    requires |parts| >= 1
    requires forall k :: 0 <= k < |parts| ==> sep !in parts[k]
    ensures Split(Join(parts, sep), sep) == parts
    decreases |parts|
  {
    if |parts| == 1 {
      SplitWithoutSeparator(parts[0], sep);
    } else {
      SplitJoin(parts[1..], sep);
      SplitAfterSeparator(parts[0], sep, Join(parts[1..], sep));
      assert [parts[0]] + parts[1..] == parts;
    }
  }

  /** `pat` occurs in `s` starting at index `i`. */
  predicate OccursAt(s: string, pat: string, i: int) {
    0 <= i && i + |pat| <= |s| && s[i..i + |pat|] == pat
  }

  /** Python's `s.replace(pat, rep)`: every non-overlapping occurrence, left to right. */
  function Replace(s: string, pat: string, rep: string): string
    requires |pat| > 0
    decreases |s|
  {
    if |s| < |pat| then s
    else if s[..|pat|] == pat then rep + Replace(s[|pat|..], pat, rep)
    else [s[0]] + Replace(s[1..], pat, rep)
  }

  /** Occurrences in a suffix are the occurrences in the whole string, shifted. */
  lemma OccursInSuffix(s: string, pat: string, k: nat, i: int)
    requires k <= |s|
    ensures OccursAt(s[k..], pat, i) <==> (i >= 0 && OccursAt(s, pat, i + k))
  {
    if 0 <= i && i + |pat| <= |s| - k {
      assert s[k..][i..i + |pat|] == s[i + k..i + k + |pat|];
    }
  }

  /** Replacing a string that does not occur changes nothing. */
  lemma {:induction false} ReplaceAbsent(s: string, pat: string, rep: string)
    requires |pat| > 0
    requires forall i :: !OccursAt(s, pat, i)
    ensures Replace(s, pat, rep) == s
    decreases |s|
  {
    if |s| >= |pat| {
      assert !OccursAt(s, pat, 0);
      forall i ensures !OccursAt(s[1..], pat, i) {
        OccursInSuffix(s, pat, 1, i);
      }
      ReplaceAbsent(s[1..], pat, rep);
      assert [s[0]] + s[1..] == s;
    }
  }

  /** When `pat` occurs exactly once, at `j`, replacing it splices `rep` in at `j`. */
  lemma {:induction false} ReplaceOnce(s: string, pat: string, rep: string, j: nat)
    requires |pat| > 0
    requires forall i :: OccursAt(s, pat, i) <==> i == j
    ensures j + |pat| <= |s|
    ensures Replace(s, pat, rep) == s[..j] + rep + s[j + |pat|..]
    decreases j
  {
    assert OccursAt(s, pat, j);
    if j == 0 {
      forall i ensures !OccursAt(s[|pat|..], pat, i) {
        OccursInSuffix(s, pat, |pat|, i);
      }
      ReplaceAbsent(s[|pat|..], pat, rep);
    } else {
      ReplaceOnceStep(s, pat, rep, j);
    }
  }

  lemma {:induction false} ReplaceOnceStep(s: string, pat: string, rep: string, j: nat)
    requires |pat| > 0 && j > 0
    requires forall i :: OccursAt(s, pat, i) <==> i == j
    ensures j + |pat| <= |s|
    ensures Replace(s, pat, rep) == s[..j] + rep + s[j + |pat|..]
    decreases j, 0
  {
    assert OccursAt(s, pat, j);
    assert !OccursAt(s, pat, 0);
    var t := s[1..];
    forall i ensures OccursAt(t, pat, i) <==> i == j - 1 {
      OccursInSuffix(s, pat, 1, i);
    }
    ReplaceOnce(t, pat, rep, j - 1);
    assert Replace(s, pat, rep) == [s[0]] + Replace(t, pat, rep);
    assert s[..j] == [s[0]] + t[..j - 1];
    assert s[j + |pat|..] == t[j - 1 + |pat|..];
  }

  function DigitChar(d: nat): char
    requires d < 10
  {
    "0123456789"[d]
  }

  predicate IsDigit(c: char) {
    '0' <= c <= '9'
  }

  /** Python's `str(n)` for a natural number: decimal digits, no leading zero. */
  function NatToString(n: nat): (r: string)
    ensures |r| >= 1
    ensures forall i :: 0 <= i < |r| ==> IsDigit(r[i])
    ensures r[0] == '0' ==> r == "0"
    decreases n
  {
    if n < 10 then [DigitChar(n)] else NatToString(n / 10) + [DigitChar(n % 10)]
  }

  /** The value of a string of decimal digits (the inverse of `NatToString`). */
  function DecimalValue(s: string): int
    requires forall i :: 0 <= i < |s| ==> IsDigit(s[i])
    decreases |s|
  {
    if |s| == 0 then 0
    else DecimalValue(s[..|s| - 1]) * 10 + ((s[|s| - 1] as int) - ('0' as int))
  }

  /** Reading the digits back gives the number that was written. */
  lemma {:induction false} NatToStringRoundTrip(n: nat)
    ensures DecimalValue(NatToString(n)) == n
    decreases n
  {
    var r := NatToString(n);
    if n >= 10 {
      NatToStringRoundTrip(n / 10);
      assert r[..|r| - 1] == NatToString(n / 10);
    }
  }

  /** Python's `str(i)` for any integer. */
  function IntToString(i: int): (r: string)
    ensures |r| >= 1
    ensures i < 0 <==> r[0] == '-'
  {
    if i < 0 then "-" + NatToString(-i) else NatToString(i)
  }
}

=== FILE: wrappers.dfy ===
/** Optional values, the model's stand-in for Python's `None`. */
module Wrappers {

  datatype Option<+T> = None | Some(value: T) {

    /** The value, or `default` when there is none (Python's `x if x is not None else d`). */
    function GetOr(default: T): T {
      match this
      case Some(v) => v
      case None => default
    }
  }
}
